=== FILE: README.md ===
# anchor-coverage in Dafny

anchor-coverage turns the program-counter traces of a patched
`solana-test-validator` into lcov files. For each trace file (`*.pcs`) it reads
the recorded program counters and turns them into virtual addresses. It then
chooses the debug build (`*.debug`) of the program that produced the trace.
The choice works by comparing the instructions the trace recorded (`*.insns`)
with the instruction words of each candidate's shared object (`*.so`).

- When a candidate matches exactly, the addresses are shifted to the
  candidate's start address, which `objdump -f` reports. Consecutive addresses
  on the same source line are merged. The hits per file and line are written
  as `SF:`/`DA:`/`end_of_record` records.
- When no candidate matches, the tool writes a `.closest_match` file instead.
  It names the candidate that agreed longest.

The model follows the crate's own structure:

| module | source | concern |
|---|---|---|
| `Words`, `Hex` | — | little-endian words, `pc << 3` on 64 bits, `{:x}`/`{:016x}`/`{}` formatting, `u64::from_str_radix(_, 16)` |
| `Paths`, `Io` | — | `Path::extension`, `with_extension`, `strip_prefix`; files as byte sequences, `File::open` and `read_u64` |
| `Util` | `src/util/mod.rs` | `files_with_extension`, `strip_current_dir` |
| `VarGuard` | `src/util/var_guard.rs` | setting and restoring an environment variable |
| `StartAddress` | `src/start_address.rs` | finding the start address in `objdump -f` output |
| `Instructions`, `Addresses` | `src/insn.rs`, `src/vaddr.rs` | the `Debug` renderings of instructions and addresses |
| `Trace` | `src/lib.rs` | `read_vaddrs` |
| `DebugMap` | `src/lib.rs` | `build_vaddr_entry_map`, `dump_vaddr_entry_map` |
| `Matcher` | `src/lib.rs` | `dwarf_mismatch`, `collect_dwarf_mismatches`, `find_applicable_dwarf` |
| `Aggregate` | `src/lib.rs` | `dedup_by_key`, the filter, `build_file_line_count_map` |
| `Lcov` | `src/lib.rs` | `write_lcov_file` and a reader for what it writes |
| `Engine` | `src/lib.rs` | `build_dwarf`, `process_pcs_path`, `run` |
| `Cli` | `src/bin/anchor-coverage.rs` | `parse_args`, `anchor_test`, `main` |

The following are parameters of the model rather than computations in it:

- the file system, given as a map from paths to byte sequences;
- directory listings;
- the standard output of `objdump`;
- the `addr2line` loader, given as an address-to-location function;
- `Path::try_exists`;
- `CARGO_HOME` and `INCLUDE_CARGO`;
- `std::env::current_dir`;
- the run of `anchor test`.

A `BTreeMap` is a Dafny `map` together with the order its keys are visited in.
That order is a ghost enumeration of the key set in a strict total order:
numeric order for addresses and line numbers, and lexicographic order for file
names.

The lcov file lists files in lexicographic order of their names and lines in
numeric order, because `FileLineCountMap` is a `BTreeMap`.

## Model

| member | source | states |
|---|---|---|
| Words.Shl3 | src/lib.rs:279 | `pc << 3` on `u64` drops the top three bits: the result is a multiple of 8 and equals `(pc mod 2^61) * 8` |
| Words.ReadU64 | src/lib.rs:278 | a little-endian word is read exactly when eight bytes remain, and its little-endian encoding is those eight bytes |
| Words.LeOfLeBytes | src/lib.rs:278 | decoding the little-endian encoding of a value below 256^n gives the value back |
| Words.LeBytesOfLe | src/lib.rs:278 | encoding the decoded value of a byte string gives the byte string back |
| Words.SwapBytesInvolution | src/insn.rs:8 | swapping the bytes of a 64-bit word twice is the identity |
| Io.ReadWordAt | src/lib.rs:352-355 | reading a word at an offset succeeds exactly when eight bytes lie there; otherwise it fails with an unexpected end of file |
| Hex.ParseToHex | src/vaddr.rs:6 | `from_str_radix(_, 16)` reads back every lower-case `{:x}` rendering of a `u64` |
| Hex.ParseAccepts | src/start_address.rs:31 | `from_str_radix` accepts every non-empty hex digit string whose value is below 2^64, with or without a leading `+`, and returns that value |
| Hex.ParseSkipsPlus | src/start_address.rs:31 | a leading `+` before a non-empty string that does not itself start with `+` changes nothing |
| Hex.ParseIgnoresCase | src/start_address.rs:31 | upper-case and lower-case hex letters give the same result, for every input |
| Hex.ParseRejects | src/start_address.rs:31 | `from_str_radix` rejects the empty string, a lone `+` and every string starting with `-` |
| Hex.ParseRejectsOverflow | src/start_address.rs:31 | `from_str_radix` rejects every digit string whose value is 2^64 or more, with or without a leading `+` |
| Hex.ToHexNoLeadingZero | src/vaddr.rs:6 | `{:x}` begins with `0` only for zero, and zero renders as `0` |
| Hex.PadHexOfBe | src/insn.rs:8 | `{:016x}` of a big-endian word is the hex dump of its bytes, two digits per byte |
| Hex.DecimalValueOfToDecimal | src/lib.rs:267 | the decimal rendering of a number reads back as that number |
| Hex.ToDecimalInjective | src/lib.rs:267 | distinct numbers render as distinct decimal strings |
| Paths.WithExtensionSetsExtension | src/lib.rs:346-347 | `with_extension` keeps the directory and stem of a path and makes the new extension its extension |
| Paths.StripPrefix | src/util/mod.rs:30 | `strip_prefix` succeeds exactly when the base is a component prefix, and the base followed by the result is the path |
| Util.Collect | src/util/mod.rs:9-19 | the listing succeeds exactly when every entry is read; it then yields the paths of the regular files with the extension, in listing order |
| Util.FilesWithExtension | src/util/mod.rs:9-19 | a directory that cannot be opened passes its error through; otherwise the result succeeds exactly when every entry is read |
| Util.FilesWithExtensionSpec | src/util/mod.rs:9-19 | every returned path is a regular file with the extension, every such entry is returned, and the paths keep the listing order |
| Util.StripCurrentDir | src/util/mod.rs:25-32 | the current directory is removed when it is a prefix; otherwise, or when it is unknown, the path is unchanged |
| VarGuard.Set | src/util/var_guard.rs:21-33 | the key takes the new value or becomes unset, every other variable is unchanged, and the guard holds the previous value |
| VarGuard.Drop | src/util/var_guard.rs:37-42 | dropping the guard restores the saved value or unset state of its key and leaves every other variable alone |
| VarGuard.SetThenDropIsIdentity | src/util/var_guard.rs:21-42 | setting a variable and then dropping the guard gives back the original environment |
| StartAddress.Lines | src/start_address.rs:22 | `str::lines` yields lines without line terminators |
| StartAddress.LinesCons | src/start_address.rs:22 | the first line of `first\nrest` is `first` without a trailing carriage return, and the rest are the lines of `rest` |
| StartAddress.RFindHexMarker | src/start_address.rs:28 | `rfind("0x")` finds the last occurrence of the marker and nothing when there is none |
| StartAddress.StartAddressOf | src/start_address.rs:11-39 | a failed `objdump` passes its error through; otherwise the result is the address on the first line that yields one, or a failure naming the file when no line does |
| StartAddress.ColonIsOptional | src/start_address.rs:23-27 | a colon after `start address` does not change the address found |
| StartAddress.OtherLinesIgnored | src/start_address.rs:25-27 | a line that does not begin with `start address` yields no address |
| StartAddress.LineAddressAfterHead | src/start_address.rs:25-33 | on a line whose head holds no `0`, the address is read after the last `0x` of the tail |
| Instructions.Debug | src/insn.rs:4-10 | the rendering of an instruction is `0x` followed by exactly sixteen lower-case hex digits |
| Instructions.DebugShowsFileBytes | src/insn.rs:4-10 | the rendering of a word read from a file is the hex dump of the eight bytes as they lie in the file |
| Instructions.DebugInjective | src/insn.rs:4-10 | distinct instructions render differently |
| Addresses.Debug | src/vaddr.rs:4-8 | the rendering of an address is `0x` followed by lower-case hex digits with no leading zero |
| Addresses.DebugRoundTrip | src/vaddr.rs:4-8 | reading the digits of an address's rendering as hexadecimal gives the address back |
| Trace.ReadVaddrs | src/lib.rs:275-283 | reading a trace succeeds exactly when the file exists, and yields the decoded words of the whole file |
| Trace.DecodeVaddrsWords | src/lib.rs:278-281 | the i-th address is the i-th little-endian word shifted left by three; a trailing partial word is ignored |
| Trace.DecodeEncodedPcs | src/lib.rs:278-281 | a file holding the program counters, followed by fewer than eight stray bytes, decodes to those counters times eight modulo 2^64 |
| DebugMap.EntryAt | src/lib.rs:230-259 | an address gets an entry, naming the found file and line, if and only if the loader finds a file, line and column for it, the file exists, and it is not under `CARGO_HOME` unless `INCLUDE_CARGO` is set; the build aborts exactly when the loader fails or the found file's existence cannot be determined |
| DebugMap.BuildFrom | src/lib.rs:230-260 | the map is built exactly when every aligned address below the file length can be looked up, and it holds the entries of exactly the aligned addresses that have one |
| DebugMap.BuildVaddrEntryMap | src/lib.rs:227-262 | a missing debug file is an error, and every key is an 8-aligned offset inside the debug file |
| DebugMap.IncludeCargoOnlyAdds | src/lib.rs:247-249 | setting `INCLUDE_CARGO` fails exactly when not setting it fails, keeps every entry, and adds only entries under `CARGO_HOME` |
| DebugMap.RenderInjective | src/lib.rs:267 | distinct entries render as distinct `file:line` strings, so `prev != curr` detects a change of entry |
| DebugMap.DumpPrintsEntryChanges | src/lib.rs:264-273 | the dump prints, in address order, exactly the addresses whose entry differs from that of the previous address |
| Matcher.ScanNone | src/lib.rs:349-373 | the comparison loop finds nothing exactly when every position reads and agrees or holds a call |
| Matcher.ScanSome | src/lib.rs:349-370 | a reported mismatch is the first position that is not a call and where expected and actual differ, with its shifted address and both words |
| Matcher.ScanErr | src/lib.rs:352-355 | a failed comparison failed at a position where a read fell short or the shifted address overflowed, after agreement up to there |
| Matcher.DwarfMismatch | src/lib.rs:330-374 | an empty trace, or a candidate starting before the first address, gives the default mismatch; `None` means an exact match; any other mismatch is the first disagreement; the result is an error exactly when the binary or the instruction file is missing (the error names it), or when, before any disagreement, a shifted address overflows or a read falls short |
| Matcher.DivergenceIsReported | src/lib.rs:349-370 | conversely, a position where the words first disagree and the expected word is not a call is reported, with its shifted address and both words |
| Matcher.CallSkipTolerance | src/lib.rs:359-361 | positions where the `.so` holds a call never cause a mismatch, whatever the trace recorded |
| Matcher.CollectDwarfMismatches | src/lib.rs:316-328 | the mismatches of all candidates are gathered in order; an error is the error of the first candidate that fails |
| Matcher.MaxByIndex | src/lib.rs:310-313 | `max_by_key` picks a largest mismatch index and, among ties, the last candidate |
| Matcher.FindApplicableDwarf | src/lib.rs:285-314 | the first exact candidate is chosen, with every address shifted so the first is its start address; otherwise every candidate mismatched and the one with the largest index, the last among ties, is chosen; a failure is the first failing candidate's error |
| Matcher.ShiftAlignsFirstAddress | src/lib.rs:192-194 | after an exact match, the first shifted address is the chosen candidate's start address, so the assertion in `process_pcs_path` cannot fail |
| Matcher.ExactMatchShiftFits | src/lib.rs:296-305 | after an exact match, `vaddr + shift` overflows for no address, so the shifting loop cannot panic |
| Matcher.EmptyTraceSelectsLastCandidate | src/lib.rs:285-314 | an empty trace matches no candidate and selects the last one with the default mismatch |
| Aggregate.DedupKeepsRunStarts | src/lib.rs:198 | `dedup_by_key` keeps exactly the addresses whose lookup differs from that of the preceding address |
| Aggregate.RunsCountedOnce | src/lib.rs:196-205 | after the merge and the filter, the hits of an entry are its number of maximal runs of consecutive addresses |
| Aggregate.Increment | src/lib.rs:410-412 | one count rises by one and nothing else changes |
| Aggregate.Tally | src/lib.rs:405-413 | after the loop each count has risen by the number of addresses that map to its file and line |
| Aggregate.BuildFileLineCountMap | src/lib.rs:395-416 | the count map has a line for every entry of the map and no other, and each count is the number of addresses that map there |
| Aggregate.ZeroFilled | src/lib.rs:400-403 | a line that no address hits is still reported, with count zero |
| Aggregate.IncludeCargoKeepsLineCount | src/lib.rs:247-249 | setting `INCLUDE_CARGO` leaves the count of every line outside `CARGO_HOME` unchanged |
| Lcov.ParseWriteLcovFile | src/lib.rs:418-437 | the written `SF:`/`DA:`/`end_of_record` lines read back as exactly the count map |
| Lcov.ParseDaLine | src/lib.rs:431 | a `DA:line,count` line reads back as its line and count |
| Lcov.SortedFiles | src/lib.rs:427 | source files are written in strictly increasing lexicographic order, each once |
| Lcov.SortedLines | src/lib.rs:430 | lines are written in strictly increasing numeric order, each once |
| Lcov.TotalIsLineHits | src/lib.rs:202-209 | the counts of the map add up to the number of line hits |
| Lcov.WrittenCountsReportRuns | src/lib.rs:198-211 | the lcov lines read back as a count map that covers every entry and counts the runs of consecutive hits on each line |
| Engine.BuildDwarf | src/lib.rs:147-168 | a candidate is built exactly when the start address, the loader and the address map are all obtained; it then carries the start address from `objdump` and the address map of its debug file; otherwise the first of those errors passes through |
| Engine.Candidates | src/lib.rs:89-94 | the candidates are built, one per `.debug` file in listing order, exactly when the deploy listing and every build succeed; otherwise the listing's error, or that of the first build that fails, passes through |
| Engine.ProcessPcsPath | src/lib.rs:170-212 | a missing trace is an error; a readable trace is an error exactly when candidate selection fails (a candidate's binary or instruction file is missing or a read falls short), with that error; otherwise an lcov file is written if and only if some candidate matches exactly, and a closest-match file otherwise |
| Engine.ClosestMatchReported | src/lib.rs:181-185 | when no candidate matches exactly, the outcome is the trace's `.closest_match` file naming the trace, the selected candidate and its mismatch |
| Engine.LcovReportsRuns | src/lib.rs:181-211 | when the chosen candidate matches exactly, the outcome is an lcov file whose lines report, per line, the runs of shifted addresses |
| Engine.EveryTraceHasOneOutcome | src/lib.rs:110-119 | each processed trace adds exactly one path, to the lcov list or to the closest-match list |
| Engine.Run | src/lib.rs:85-139 | the run fails exactly when the candidates cannot be built or, when there are some and it is not a debug dump, the traces cannot be listed or one cannot be processed, and the error is that of the candidates, of the trace listing, or of the first trace that fails; "no debug files" is reported exactly when there are none; a debug run prints the dumps of all candidates' maps; a processed run handles every trace and lists, in trace order, the lcov file of each exactly matched trace and the closest-match file of each other trace |
| Engine.DumpAll | src/lib.rs:101-106 | the dump for one candidate is the listing of the addresses where its map's entry changes, in ascending order |
| Engine.DumpAllAppend | src/lib.rs:101-106 | the dumps of the candidates are printed one after the other, in candidate order |
| Engine.ListingsOfOutcomes | src/lib.rs:110-119 | the paths collected from the outcomes are the lcov files of exactly the traces some candidate matches, and the closest-match files of the rest, in trace order |
| Engine.IncludeCargoKeepsReportedCounts | src/lib.rs:247-249 | for a fixed trace, setting `INCLUDE_CARGO` keeps every line's count that was reported without it |
| Cli.ParseArgs | src/bin/anchor-coverage.rs:64-82 | `--debug` and `--help`/`-h` set their flags exactly when present after the program name, and the arguments passed on are exactly the others, with repetitions, in order |
| Cli.ParseArgsKeepsOthers | src/bin/anchor-coverage.rs:64-82 | the arguments passed on are the arguments after the program name with every flag removed, so each other argument appears as often as given and in its original order |
| Cli.AnchorTestArgv | src/bin/anchor-coverage.rs:84-93 | `anchor test` receives the arguments, then `--` unless one is already present, then `--debug` |
| Cli.AnchorTestAddsOneSeparator | src/bin/anchor-coverage.rs:90-92 | the command line holds exactly one more `--` than the arguments when they hold none, and the same number otherwise |
| Cli.AnchorCoverageMain | src/bin/anchor-coverage.rs:18-62 | help ends at once; otherwise `main` fails exactly when the current directory, preparing `sbf_trace_dir`, `anchor test`, the trace listing or `run` fails or no trace was written, the first such error passing through; on success coverage has run in `sbf_trace_dir` of the current directory on a non-empty set of traces |
| Cli.NoTracesIsAnError | src/bin/anchor-coverage.rs:50-57 | when `anchor test` leaves no trace files, `main` fails naming the trace directory |

## Left out

- Subprocesses are not modelled. `objdump -f`, `cargo metadata` and `anchor test` appear only through their results: the standard output, the deploy listing and the trace listing. Success checks on their exit status become a `Result`.
- The `addr2line` loader is an address-to-location function that may fail. DWARF parsing is not part of this model, and neither is the `Box::leak` that keeps the loader alive.
- Writing files is not modelled beyond the lines written. Create, truncate and write errors are out of scope, and so is the `{:#?}` layout of the `.closest_match` file.
- Console output (`eprintln!`, `println!`) is left out. The exception is the dump of `--debug`, modelled as its lines.
- Removing and re-creating `sbf_trace_dir` are one `prepare` step that may fail. The `SBF_TRACE_DIR` variable passed to `anchor test` is implicit in the trace listing.
- `VarGuard` models the environment as a map. Concurrent access, the `unsafe` around `set_var`, and `OsString` encoding are left out.
- `CARGO_HOME` is taken as a string: `home_dir()/.cargo` when the variable is unset. The lossy conversion `to_string_lossy` is left out.
- Matcher.DwarfMismatch: `vaddr + shift` at line 350 is modelled as checked addition that fails. This is a debug build's panic; a release build's wrap-around is not modelled. At line 304 the addition is proved never to overflow.
- Aggregate.Increment: counts are unbounded naturals. A `usize` overflow would need more than 2^64 hits.
- The `nested_workspace` test, `src/anchor_cli_lib` and the `DOCKER_BUILDER_VERSION` hacks are not part of this model. They serve the tool's own tests and builds.
- Errors carry the path they concern: `NotFound(path)` and `UnexpectedEof(path)`. The `io::Error`s of `metadata`, `File::open`, `seek` and `read_u64` at src/lib.rs:229 and 345-354 carry no path, so the model's errors say more than the source's do.
- `CARGO_HOME` falls back to `home_dir().unwrap().join(".cargo")` at src/lib.rs:223. That panics when there is no home directory; the model takes the directory as given, so the panic is not modelled.
- UTF-8 validation of `objdump` output is left out. Standard output is taken as an already-decoded string.

=== FILE: aggregate.dfy ===
/** Folding a shifted trace into per-line hit counts: the `dedup_by_key`
    and `filter` steps of `process_pcs_path`, and
    `build_file_line_count_map`. */
module Aggregate {
  import opened Wrappers
  import opened Words
  import opened Seqs
  import opened DebugMap

  /** `FileLineCountMap`: source file, then line, then hit count. */
  type CountMap = map<string, map<nat, nat>>

  /** `vaddr_entry_map.get(vaddr)`. */
  function Lookup(m: VaddrEntryMap, v: u64): Option<Entry>
  {
    if v in m then Some(m[v]) else None
  }

  /** The part of `dedup_by_key` after position `i`: an element is dropped
      when its key equals the key of `last`, the last element kept. */
  function DedupFrom(m: VaddrEntryMap, vs: seq<u64>, last: u64, i: nat): seq<u64>
    requires i <= |vs|
    decreases |vs| - i
  {
    if i == |vs| then []
    else if Lookup(m, vs[i]) == Lookup(m, last) then DedupFrom(m, vs, last, i + 1)
    else [vs[i]] + DedupFrom(m, vs, vs[i], i + 1)
  }

  /** `vaddrs.dedup_by_key(|vaddr| vaddr_entry_map.get(vaddr))`. */
  function DedupByKey(m: VaddrEntryMap, vs: seq<u64>): seq<u64>
  {
    if |vs| == 0 then [] else [vs[0]] + DedupFrom(m, vs, vs[0], 1)
  }

  /** Position `i` starts a maximal run of addresses with the same lookup. */
  predicate RunStart(m: VaddrEntryMap, vs: seq<u64>, i: nat)
    requires i < |vs|
  {
    i == 0 || Lookup(m, vs[i]) != Lookup(m, vs[i - 1])
  }

  /** The first address of every maximal run from position `i` on. */
  function RunStartsFrom(m: VaddrEntryMap, vs: seq<u64>, i: nat): seq<u64>
    requires i <= |vs|
    decreases |vs| - i
  {
    if i == |vs| then []
    else (if RunStart(m, vs, i) then [vs[i]] else []) + RunStartsFrom(m, vs, i + 1)
  }

  lemma {:induction false} DedupFromIsRunStarts(m: VaddrEntryMap, vs: seq<u64>, last: u64, i: nat)
    requires 0 < i <= |vs| && Lookup(m, last) == Lookup(m, vs[i - 1])
    ensures DedupFrom(m, vs, last, i) == RunStartsFrom(m, vs, i)
    decreases |vs| - i
  {
    if i < |vs| {
      if Lookup(m, vs[i]) == Lookup(m, last) {
        DedupFromIsRunStarts(m, vs, last, i + 1);
      } else {
        DedupFromIsRunStarts(m, vs, vs[i], i + 1);
      }
    }
  }

  /** Comparing with the last element kept is the same as comparing with the
      previous element: dedup keeps exactly the first address of each run. */
  lemma DedupKeepsRunStarts(m: VaddrEntryMap, vs: seq<u64>)
    ensures DedupByKey(m, vs) == RunStartsFrom(m, vs, 0)
  {
    if |vs| > 0 {
      DedupFromIsRunStarts(m, vs, vs[0], 1);
    }
  }

  /** The addresses that reach the count map: deduplicated, then only those
      with an entry. */
  function Survivors(m: VaddrEntryMap, vs: seq<u64>): (r: seq<u64>)
    ensures forall i :: 0 <= i < |r| ==> r[i] in m
  {
    Filter(DedupByKey(m, vs), v => v in m)
  }

  /** How many addresses of `vs` map to entry `e`. */
  function Hits(m: VaddrEntryMap, vs: seq<u64>, e: Entry): nat
  {
    if |vs| == 0 then 0
    else (if Lookup(m, vs[0]) == Some(e) then 1 else 0) + Hits(m, vs[1..], e)
  }

  /** How many maximal runs of `vs`, from position `i` on, map to `e`. */
  function RunsFrom(m: VaddrEntryMap, vs: seq<u64>, e: Entry, i: nat): nat
    requires i <= |vs|
    decreases |vs| - i
  {
    if i == |vs| then 0
    else (if RunStart(m, vs, i) && Lookup(m, vs[i]) == Some(e) then 1 else 0) + RunsFrom(m, vs, e, i + 1)
  }

  lemma {:induction false} HitsAppend(m: VaddrEntryMap, a: seq<u64>, b: seq<u64>, e: Entry)
    ensures Hits(m, a + b, e) == Hits(m, a, e) + Hits(m, b, e)
  {
    if |a| > 0 {
      assert (a + b)[1..] == a[1..] + b;
      HitsAppend(m, a[1..], b, e);
    } else {
      assert a + b == b;
    }
  }

  /** Dropping unmapped addresses does not change any entry's hits. */
  lemma {:induction false} HitsIgnoresUnmapped(m: VaddrEntryMap, vs: seq<u64>, e: Entry)
    ensures Hits(m, Filter(vs, v => v in m), e) == Hits(m, vs, e)
  {
    if |vs| > 0 {
      HitsIgnoresUnmapped(m, vs[1..], e);
    }
  }

  lemma {:induction false} HitsOfRunStarts(m: VaddrEntryMap, vs: seq<u64>, e: Entry, i: nat)
    requires i <= |vs|
    ensures Hits(m, RunStartsFrom(m, vs, i), e) == RunsFrom(m, vs, e, i)
    decreases |vs| - i
  {
    if i < |vs| {
      HitsOfRunStarts(m, vs, e, i + 1);
      HitsAppend(m, if RunStart(m, vs, i) then [vs[i]] else [], RunStartsFrom(m, vs, i + 1), e);
    }
  }

  /** Every surviving address has an entry, and the hits an entry receives
      are the number of maximal runs of the trace that map to it: a run
      counts once, and an unmapped address between two equal entries splits
      the run because dedup precedes the filter. */
  lemma RunsCountedOnce(m: VaddrEntryMap, vs: seq<u64>, e: Entry)
    ensures forall i :: 0 <= i < |Survivors(m, vs)| ==> Survivors(m, vs)[i] in m
    ensures Hits(m, Survivors(m, vs), e) == RunsFrom(m, vs, e, 0)
  {
    DedupKeepsRunStarts(m, vs);
    HitsIgnoresUnmapped(m, DedupByKey(m, vs), e);
    HitsOfRunStarts(m, vs, e, 0);
  }

  /** Every count written for a trace is the number of maximal runs of the
      trace that map to that line. */
  lemma {:induction false} CountsAreRuns(m: VaddrEntryMap, vs: seq<u64>)
    ensures var counts := BuildFileLineCountMap(m, Survivors(m, vs));
      forall f, l :: f in counts && l in counts[f] ==> counts[f][l] == RunsFrom(m, vs, Entry(f, l), 0)
  {
    var counts := BuildFileLineCountMap(m, Survivors(m, vs));
    forall f, l | f in counts && l in counts[f]
      ensures counts[f][l] == RunsFrom(m, vs, Entry(f, l), 0)
    {
      RunsCountedOnce(m, vs, Entry(f, l));
    }
  }

  /** The files named by the map's entries. */
  function FilesOf(m: VaddrEntryMap): set<string>
  {
    set v | v in m :: m[v].file
  }

  /** The lines of file `f` named by the map's entries. */
  function LinesOf(m: VaddrEntryMap, f: string): set<nat>
  {
    set v | v in m && m[v].file == f :: m[v].line
  }

  /** The count map has one key per file of the map and, under it, one key
      per line of that file. */
  predicate Shape(counts: CountMap, m: VaddrEntryMap)
  {
    && counts.Keys == FilesOf(m)
    && forall f :: f in counts ==> counts[f].Keys == LinesOf(m, f)
  }

  /** The first loop of `build_file_line_count_map`: a zero for every entry. */
  function Zeroed(m: VaddrEntryMap): (r: CountMap)
    ensures Shape(r, m)
    ensures forall f, l :: f in r && l in r[f] ==> r[f][l] == 0
  {
    map f | f in FilesOf(m) :: map l | l in LinesOf(m, f) :: 0
  }

  /** `*count += 1` for the entry's file and line. */
  function Increment(counts: CountMap, e: Entry): (r: CountMap)
    requires e.file in counts && e.line in counts[e.file]
    ensures r.Keys == counts.Keys && r[e.file].Keys == counts[e.file].Keys
    ensures r[e.file][e.line] == counts[e.file][e.line] + 1
    ensures forall l :: l in counts[e.file] && l != e.line ==> r[e.file][l] == counts[e.file][l]
    ensures forall f :: f in counts && f != e.file ==> r[f] == counts[f]
  {
    var lines: map<nat, nat> := counts[e.file][e.line := counts[e.file][e.line] + 1];
    counts[e.file := lines]
  }

  /** One step of the second loop: an unmapped address is skipped; otherwise
      its entry's count goes up by one. Both `unwrap`s succeed because the
      count map has the map's shape. */
  function Bump(m: VaddrEntryMap, counts: CountMap, v: u64): (r: CountMap)
    requires Shape(counts, m)
    ensures Shape(r, m)
    ensures forall f, l :: f in r && l in r[f] ==>
              r[f][l] == counts[f][l] + (if Lookup(m, v) == Some(Entry(f, l)) then 1 else 0)
  {
    if v !in m then counts
    else
      var e := m[v];
      assert e.file in FilesOf(m);
      assert e.line in LinesOf(m, e.file);
      Increment(counts, e)
  }

  /** The second loop of `build_file_line_count_map`, over `vs` in order. */
  function Tally(m: VaddrEntryMap, counts: CountMap, vs: seq<u64>): (r: CountMap)
    requires Shape(counts, m)
    ensures Shape(r, m)
    ensures forall f, l :: f in r && l in r[f] ==> r[f][l] == counts[f][l] + Hits(m, vs, Entry(f, l))
  {
    if |vs| == 0 then counts
    else Tally(m, Bump(m, counts, vs[0]), vs[1..])
  }

  /** A count map of the map's shape has a key for every entry and no other key. */
  lemma ShapeKeys(counts: CountMap, m: VaddrEntryMap)
    requires Shape(counts, m)
    ensures forall v :: v in m ==> m[v].file in counts && m[v].line in counts[m[v].file]
    ensures forall f, l :: f in counts && l in counts[f] ==> Entry(f, l) in m.Values
  {
    forall v | v in m
      ensures m[v].file in counts && m[v].line in counts[m[v].file]
    {
      assert m[v].file in FilesOf(m);
      assert m[v].line in LinesOf(m, m[v].file);
    }
    forall f, l | f in counts && l in counts[f]
      ensures Entry(f, l) in m.Values
    {
      assert l in LinesOf(m, f);
      var v :| v in m && m[v].file == f && m[v].line == l;
      assert m[v] == Entry(f, l);
    }
  }

  lemma TallyFromZero(m: VaddrEntryMap, vs: seq<u64>)
    ensures var r := Tally(m, Zeroed(m), vs);
      forall f, l :: f in r && l in r[f] ==> r[f][l] == Hits(m, vs, Entry(f, l))
  {
    var z := Zeroed(m);
    assert Tally(m, z, vs).Keys == z.Keys;
  }

  /** `build_file_line_count_map(vaddr_entry_map, vaddrs)`: its keys are
      exactly the (file, line) pairs of the map's entries, and each count is
      the number of addresses of `vs` that map to that pair. */
  function BuildFileLineCountMap(m: VaddrEntryMap, vs: seq<u64>): (r: CountMap)
    ensures forall v :: v in m ==> m[v].file in r && m[v].line in r[m[v].file]
    ensures forall f, l :: f in r && l in r[f] ==> Entry(f, l) in m.Values
    ensures forall f, l :: f in r && l in r[f] ==> r[f][l] == Hits(m, vs, Entry(f, l))
  {
    var r := Tally(m, Zeroed(m), vs);
    TallyFromZero(m, vs);
    ShapeKeys(r, m);
    r
  }

  /** The count map is the tally over the zeroed map. */
  lemma BuildIsTally(m: VaddrEntryMap, vs: seq<u64>)
    ensures BuildFileLineCountMap(m, vs) == Tally(m, Zeroed(m), vs)
  {
  }

  /** A line of the map that the trace never reaches is reported with a
      zero count rather than omitted. */
  lemma {:induction false} ZeroFilled(m: VaddrEntryMap, vs: seq<u64>, v: u64)
    requires v in m
    requires forall i :: 0 <= i < |vs| ==> Lookup(m, vs[i]) != Some(m[v])
    ensures var r := BuildFileLineCountMap(m, vs);
      m[v].file in r && m[v].line in r[m[v].file] && r[m[v].file][m[v].line] == 0
  {
    NoHits(m, vs, m[v]);
  }

  lemma {:induction false} NoHits(m: VaddrEntryMap, vs: seq<u64>, e: Entry)
    requires forall i :: 0 <= i < |vs| ==> Lookup(m, vs[i]) != Some(e)
    ensures Hits(m, vs, e) == 0
  {
    if |vs| > 0 {
      NoHits(m, vs[1..], e);
    }
  }

  /** Two maps that agree on which addresses map to `e`. */
  predicate SameFor(m1: VaddrEntryMap, m2: VaddrEntryMap, e: Entry)
  {
    forall v: u64 :: Lookup(m1, v) == Some(e) <==> Lookup(m2, v) == Some(e)
  }

  lemma {:induction false} RunsAgree(m1: VaddrEntryMap, m2: VaddrEntryMap, vs: seq<u64>, e: Entry, i: nat)
    requires i <= |vs| && SameFor(m1, m2, e)
    ensures RunsFrom(m1, vs, e, i) == RunsFrom(m2, vs, e, i)
    decreases |vs| - i
  {
    if i < |vs| {
      RunsAgree(m1, m2, vs, e, i + 1);
      if i > 0 {
        assert Lookup(m1, vs[i - 1]) == Some(e) <==> Lookup(m2, vs[i - 1]) == Some(e);
      }
    }
  }

  /** Setting `INCLUDE_CARGO` leaves the count of every line that is
      reported without it unchanged: the added entries are for other files,
      so they neither join nor split the runs of an entry present without it. */
  lemma IncludeCargoKeepsCounts(without: VaddrEntryMap, with: VaddrEntryMap, cargoHome: string, vs: seq<u64>, v: u64)
    requires CargoExtension(without, with, cargoHome)
    requires v in without
    ensures Hits(with, Survivors(with, vs), without[v]) == Hits(without, Survivors(without, vs), without[v])
  {
    var e := without[v];
    forall x: u64
      ensures Lookup(with, x) == Some(e) <==> Lookup(without, x) == Some(e)
    {
    }
    RunsCountedOnce(with, vs, e);
    RunsCountedOnce(without, vs, e);
    RunsAgree(with, without, vs, e, 0);
  }

  /** The same, stated on the count maps: the line of an entry present
      without `INCLUDE_CARGO` is reported with it, with the same count. */
  lemma {:induction false} IncludeCargoKeepsLineCount(without: VaddrEntryMap, with: VaddrEntryMap, cargoHome: string, vs: seq<u64>, v: u64)
    requires CargoExtension(without, with, cargoHome)
    requires v in without
    ensures var e := without[v];
      var cw := BuildFileLineCountMap(with, Survivors(with, vs));
      var co := BuildFileLineCountMap(without, Survivors(without, vs));
      && e.file in cw && e.line in cw[e.file]
      && e.file in co && e.line in co[e.file]
      && cw[e.file][e.line] == co[e.file][e.line]
  {
    var e := without[v];
    assert v in with && with[v] == e;
    var cw := BuildFileLineCountMap(with, Survivors(with, vs));
    var co := BuildFileLineCountMap(without, Survivors(without, vs));
    assert e.file in cw && e.line in cw[e.file];
    assert e.file in co && e.line in co[e.file];
    IncludeCargoKeepsCounts(without, with, cargoHome, vs, v);
  }
}

=== FILE: cli.dfy ===
/** The `anchor-coverage` binary: splitting its arguments, building the
    `anchor test` command line, and the control flow of `main`. */
module Cli {
  import opened Wrappers
  import opened Seqs
  import opened Paths
  import opened Io
  import opened Util
  import opened Engine

  /** `Options`. */
  datatype Options = Options(args: seq<string>, debug: bool, help: bool)

  predicate IsHelpFlag(arg: string)
  {
    arg == "--help" || arg == "-h"
  }

  /** The arguments `parse_args` consumes. */
  predicate IsOwnFlag(arg: string)
  {
    arg == "--debug" || IsHelpFlag(arg)
  }

  /** An argument `parse_args` passes on. */
  predicate Kept(arg: string)
  {
    !IsOwnFlag(arg)
  }

  /** The `filter_map` over the arguments from position `i` on, with the
      flags seen so far. */
  function ParseFrom(argv: seq<string>, i: nat, acc: Options): (o: Options)
    requires 1 <= i <= |argv|
    ensures o.debug <==> acc.debug || "--debug" in argv[i..]
    ensures o.help <==> acc.help || "--help" in argv[i..] || "-h" in argv[i..]
    ensures o.args == acc.args + Filter(argv[i..], Kept)
    decreases |argv| - i
  {
    if i == |argv| then acc
    else
      var arg := argv[i];
      assert argv[i..][0] == arg && argv[i..][1..] == argv[i + 1..];
      assert Filter(argv[i..], Kept) == (if Kept(arg) then [arg] else []) + Filter(argv[i + 1..], Kept);
      if arg == "--debug" then ParseFrom(argv, i + 1, acc.(debug := true))
      else if IsHelpFlag(arg) then ParseFrom(argv, i + 1, acc.(help := true))
      else ParseFrom(argv, i + 1, acc.(args := acc.args + [arg]))
  }

  /** `parse_args()` over `std::env::args()`, whose first element is the
      program name. */
  function ParseArgs(argv: seq<string>): (o: Options)
    ensures o.debug <==> exists j :: 1 <= j < |argv| && argv[j] == "--debug"
    ensures o.help <==> exists j :: 1 <= j < |argv| && IsHelpFlag(argv[j])
    ensures forall k :: 0 <= k < |o.args| ==> !IsOwnFlag(o.args[k])
    ensures |argv| > 0 ==> o.args == Filter(argv[1..], Kept)
    ensures |argv| == 0 ==> o.args == []
  {
    if |argv| == 0 then Options([], false, false)
    else ParseFrom(argv, 1, Options([], false, false))
  }

  /** The retained arguments are the others, all of them, with their
      repetitions, in their order. */
  lemma {:induction false} ParseArgsKeepsOthers(argv: seq<string>)
    requires |argv| > 0
    ensures ParseArgs(argv).args == Filter(argv[1..], Kept)
    ensures IsSubsequence(ParseArgs(argv).args, argv[1..])
    ensures forall j :: 1 <= j < |argv| && !IsOwnFlag(argv[j]) ==> argv[j] in ParseArgs(argv).args
  {
    assert ParseArgs(argv).args == [] + Filter(argv[1..], Kept) == Filter(argv[1..], Kept);
    FilterIsSubsequence(argv[1..], Kept);
    forall j | 1 <= j < |argv| && !IsOwnFlag(argv[j])
      ensures argv[j] in ParseArgs(argv).args
    {
      assert argv[j] == argv[1..][j - 1] && Kept(argv[1..][j - 1]);
    }
  }

  /** The arguments `anchor_test` passes to `anchor`. */
  function AnchorTestArgv(args: seq<string>): (argv: seq<string>)
    ensures |argv| >= |args| + 2 && argv[0] == "test" && argv[|argv| - 1] == "--debug"
    ensures argv[1..|args| + 1] == args
    ensures "--" in args ==> |argv| == |args| + 2
    ensures "--" !in args ==> |argv| == |args| + 3 && argv[|args| + 1] == "--"
    ensures "--" in argv
  {
    ["test"] + args + (if "--" in args then [] else ["--"]) + ["--debug"]
  }

  /** `anchor_test` adds at most one `--`. */
  lemma {:induction false} AnchorTestAddsOneSeparator(args: seq<string>)
    ensures Count(AnchorTestArgv(args), "--") == Count(args, "--") + (if "--" in args then 0 else 1)
  {
    var argv := AnchorTestArgv(args);
    var tail: seq<string> := (if "--" in args then [] else ["--"]) + ["--debug"];
    assert argv == ["test"] + (args + tail);
    CountAppend(["test"], args + tail, "--");
    CountAppend(args, tail, "--");
    if "--" !in args {
      CountAppend(["--"], ["--debug"], "--");
    }
  }

  /** What `main` depends on besides the arguments: the current directory,
      preparing a fresh `sbf_trace_dir` (remove, then create), and running
      `anchor test` with `SBF_TRACE_DIR` set, which yields the world the
      library then observes, or fails. */
  datatype Process = Process(
    currentDir: Result<Path, Error>,
    prepare: Path -> Result<(), Error>,
    anchorTest: (seq<string>, Path) -> Result<World, Error>)

  /** How `main` ends when it succeeds. */
  datatype Exit = HelpPrinted | Ran(report: Report)

  const TRACE_DIR_NAME: string := "sbf_trace_dir"

  /** `main` fails once help is not asked for: the current directory is
      unknown, the trace directory cannot be prepared, `anchor test` fails,
      the trace directory cannot be listed or holds no `.pcs` file, or `run`
      fails. */
  ghost predicate MainFails(p: Process, argv: seq<string>)
  {
    || p.currentDir.Err?
    || var dir := p.currentDir.value + [TRACE_DIR_NAME];
       || p.prepare(dir).Err?
       || var w := p.anchorTest(AnchorTestArgv(ParseArgs(argv).args), dir);
          || w.Err?
          || var pcsPaths := FilesWithExtension(w.value.traceListing, "pcs");
             || pcsPaths.Err?
             || |pcsPaths.value| == 0
             || Run(w.value, ParseArgs(argv).debug).Err?
  }

  /** `main()`. */
  ghost function AnchorCoverageMain(p: Process, argv: seq<string>): (r: Result<Exit, Error>)
    ensures ParseArgs(argv).help ==> r == Ok(HelpPrinted)
    ensures !ParseArgs(argv).help ==> (r.Err? <==> MainFails(p, argv))
    ensures !ParseArgs(argv).help && r.Ok? ==> r.value.Ran?
    ensures !ParseArgs(argv).help && p.currentDir.Err? ==> r == Err(p.currentDir.error)
    ensures !ParseArgs(argv).help && p.currentDir.Ok? ==>
              var dir := p.currentDir.value + [TRACE_DIR_NAME];
              && (p.prepare(dir).Err? ==> r == Err(p.prepare(dir).error))
              && (p.prepare(dir).Ok? ==>
                    var w := p.anchorTest(AnchorTestArgv(ParseArgs(argv).args), dir);
                    && (w.Err? ==> r == Err(w.error))
                    && (w.Ok? && FilesWithExtension(w.value.traceListing, "pcs").Err? ==>
                          r == Err(FilesWithExtension(w.value.traceListing, "pcs").error))
                    && (w.Ok? && FilesWithExtension(w.value.traceListing, "pcs").Ok?
                        && |FilesWithExtension(w.value.traceListing, "pcs").value| > 0 ==>
                          r == match Run(w.value, ParseArgs(argv).debug)
                               case Ok(report) => Ok(Ran(report))
                               case Err(e) => Err(e)))
    ensures r.Ok? && r.value.Ran? ==>
              && p.currentDir.Ok?
              && var dir := p.currentDir.value + [TRACE_DIR_NAME];
                 var w := p.anchorTest(AnchorTestArgv(ParseArgs(argv).args), dir);
                 && w.Ok?
                 && FilesWithExtension(w.value.traceListing, "pcs").Ok?
                 && |FilesWithExtension(w.value.traceListing, "pcs").value| > 0
                 && Run(w.value, ParseArgs(argv).debug) == Ok(r.value.report)
  {
    var options := ParseArgs(argv);
    if options.help then Ok(HelpPrinted)
    else
      var cwd :- p.currentDir;
      var dir := cwd + [TRACE_DIR_NAME];
      var _ :- p.prepare(dir);
      var w :- p.anchorTest(AnchorTestArgv(options.args), dir);
      var pcsPaths :- FilesWithExtension(w.traceListing, "pcs");
      if |pcsPaths| == 0 then Err(NoProgramCounterFiles(StripCurrentDir(dir, p.currentDir)))
      else
        var report :- Run(w, options.debug);
        Ok(Ran(report))
  }

  /** When the test run leaves no `.pcs` file, `main` fails naming the
      trace directory relative to the current one, and the library is not run. */
  lemma NoTracesIsAnError(p: Process, argv: seq<string>)
    requires !ParseArgs(argv).help && p.currentDir.Ok?
    requires var dir := p.currentDir.value + [TRACE_DIR_NAME];
      && p.prepare(dir).Ok?
      && var w := p.anchorTest(AnchorTestArgv(ParseArgs(argv).args), dir);
         w.Ok? && FilesWithExtension(w.value.traceListing, "pcs") == Ok([])
    ensures AnchorCoverageMain(p, argv) == Err(NoProgramCounterFiles([TRACE_DIR_NAME]))
  {
    var dir := p.currentDir.value + [TRACE_DIR_NAME];
    assert dir[..|p.currentDir.value|] == p.currentDir.value;
    assert p.currentDir.value + [TRACE_DIR_NAME] == dir;
  }
}

=== FILE: debug_map.dfy ===
/** `build_vaddr_entry_map` and `dump_vaddr_entry_map`: the map from the
    addresses of a debug binary to source lines. The DWARF lookup
    (`addr2line::Loader::find_location`), the file-existence test and the
    `CARGO_HOME` / `INCLUDE_CARGO` settings are inputs. */
module DebugMap {
  import opened Wrappers
  import opened Words
  import opened Hex
  import opened Orders
  import opened Paths
  import opened Io

  /** `Entry { file, line }`: a source line. */
  datatype Entry = Entry(file: string, line: nat)

  /** `BTreeMap<u64, Entry>`. */
  type VaddrEntryMap = map<u64, Entry>

  /** `addr2line::Location`: each part may be unknown. */
  datatype Location = Location(file: Option<string>, line: Option<nat>, column: Option<nat>)

  /** The loader, reduced to its address lookup, which may fail. */
  datatype Loader = Loader(findLocation: u64 -> Result<Option<Location>, Error>)

  /** What the builder consults besides the loader: `Path::try_exists`, the
      `CARGO_HOME` directory (as a string) and whether `INCLUDE_CARGO` is set. */
  datatype Filters = Filters(fileExists: string -> Result<bool, Error>, cargoHome: string, includeCargo: bool)

  /** The file lies under `CARGO_HOME`, by string prefix (`str::starts_with`). */
  predicate UnderCargoHome(file: string, cargoHome: string)
  {
    cargoHome <= file
  }

  /** The loader finds a file, line and column for `vaddr`, the file exists,
      and it passes the `CARGO_HOME` filter: the address gets an entry. */
  predicate Admitted(loader: Loader, f: Filters, vaddr: u64)
  {
    var loc := loader.findLocation(vaddr);
    && loc.Ok? && loc.value.Some?
    && loc.value.value.file.Some? && loc.value.value.line.Some? && loc.value.value.column.Some?
    && f.fileExists(loc.value.value.file.value) == Ok(true)
    && (f.includeCargo || !UnderCargoHome(loc.value.value.file.value, f.cargoHome))
  }

  /** The lookup aborts the build: the loader fails, or it finds a file whose
      existence cannot be determined. */
  predicate LookupFails(loader: Loader, f: Filters, vaddr: u64)
  {
    var loc := loader.findLocation(vaddr);
    || loc.Err?
    || (loc.value.Some? && loc.value.value.file.Some? && f.fileExists(loc.value.value.file.value).Err?)
  }

  /** One iteration of the loop of `build_vaddr_entry_map`: the entry for
      `vaddr`, `None` when the address is skipped, or the error that aborts
      the whole build. */
  function EntryAt(loader: Loader, f: Filters, vaddr: u64): (r: Result<Option<Entry>, Error>)
    ensures r.Ok? && r.value.Some? ==>
              var loc := loader.findLocation(vaddr);
              var e := r.value.value;
              && loc.Ok? && loc.value.Some?
              && loc.value.value.file == Some(e.file)
              && loc.value.value.line == Some(e.line)
              && loc.value.value.column.Some?
              && f.fileExists(e.file) == Ok(true)
              && (f.includeCargo || !UnderCargoHome(e.file, f.cargoHome))
    ensures Admitted(loader, f, vaddr) ==>
              var loc := loader.findLocation(vaddr).value.value;
              r == Ok(Some(Entry(loc.file.value, loc.line.value)))
    ensures r.Err? <==> LookupFails(loader, f, vaddr)
  {
    var location :- loader.findLocation(vaddr);
    match location
    case None => Ok(None)
    case Some(loc) =>
      match loc.file
      case None => Ok(None)
      case Some(file) =>
        var present :- f.fileExists(file);
        if !present then Ok(None)
        else if !f.includeCargo && UnderCargoHome(file, f.cargoHome) then Ok(None)
        else if loc.line.None? || loc.column.None? then Ok(None)
        else Ok(Some(Entry(file, loc.line.value)))
  }

  predicate Aligned(vaddr: nat)
  {
    vaddr % 8 == 0
  }

  /** The loop from address `a` on, in steps of eight, up to the file length;
      the lowest failing address aborts the build. */
  function BuildFrom(loader: Loader, f: Filters, len: u64, a: nat): (r: Result<VaddrEntryMap, Error>)
    requires Aligned(a)
    ensures r.Ok? <==> forall b: u64 :: a <= b < len && Aligned(b) ==> EntryAt(loader, f, b).Ok?
    ensures r.Ok? ==> forall b: u64 :: b in r.value <==>
              (a <= b < len && Aligned(b) && EntryAt(loader, f, b).value.Some?)
    ensures r.Ok? ==> forall b :: b in r.value ==> r.value[b] == EntryAt(loader, f, b).value.value
    decreases len - a
  {
    if a >= len then Ok(map[])
    else
      var entry :- EntryAt(loader, f, a);
      var rest :- BuildFrom(loader, f, len, a + 8);
      assert forall b: u64 :: a <= b < len && Aligned(b) ==> b == a || a + 8 <= b;
      Ok(if entry.Some? then rest[a := entry.value] else rest)
  }

  /** `build_vaddr_entry_map(loader, debug_path)`: the length comes from
      `metadata(debug_path)`, which fails for a missing file. */
  function BuildVaddrEntryMap(loader: Loader, f: Filters, fs: FileSystem, debugPath: Path): (r: Result<VaddrEntryMap, Error>)
    ensures debugPath !in fs ==> r == Err(NotFound(debugPath))
    ensures r.Ok? ==> forall b :: b in r.value ==> Aligned(b) && b < |fs[debugPath]|
  {
    var bytes :- Open(fs, debugPath);
    BuildFrom(loader, f, |bytes|, 0)
  }

  /** Without `INCLUDE_CARGO` the map is the map with it, minus exactly the
      entries whose file lies under `CARGO_HOME`. */
  ghost predicate CargoExtension(without: VaddrEntryMap, with: VaddrEntryMap, cargoHome: string)
  {
    && (forall a :: a in without ==> a in with && with[a] == without[a])
    && (forall a :: a in without ==> !UnderCargoHome(without[a].file, cargoHome))
    && (forall a :: a in with && a !in without ==> UnderCargoHome(with[a].file, cargoHome))
  }

  /** Setting `INCLUDE_CARGO` does not change whether the build fails, and
      only adds entries for files under `CARGO_HOME`. */
  lemma IncludeCargoOnlyAdds(loader: Loader, f: Filters, fs: FileSystem, debugPath: Path)
    ensures var without := BuildVaddrEntryMap(loader, f.(includeCargo := false), fs, debugPath);
      var with := BuildVaddrEntryMap(loader, f.(includeCargo := true), fs, debugPath);
      && (without.Ok? <==> with.Ok?)
      && (without.Ok? ==> CargoExtension(without.value, with.value, f.cargoHome))
  {
    var fo, fw := f.(includeCargo := false), f.(includeCargo := true);
    forall b: u64
      ensures EntryAt(loader, fo, b).Ok? <==> EntryAt(loader, fw, b).Ok?
      ensures EntryAt(loader, fo, b).Ok? && EntryAt(loader, fo, b).value.Some? ==>
                EntryAt(loader, fw, b) == EntryAt(loader, fo, b)
                && !UnderCargoHome(EntryAt(loader, fo, b).value.value.file, f.cargoHome)
      ensures EntryAt(loader, fw, b).Ok? && EntryAt(loader, fw, b).value.Some? && EntryAt(loader, fo, b).value.None? ==>
                UnderCargoHome(EntryAt(loader, fw, b).value.value.file, f.cargoHome)
    {
    }
  }

  /** `format!("{file}:{line}")`. */
  function Render(e: Entry): string
  {
    e.file + ":" + ToDecimal(e.line)
  }

  /** Different entries render differently: the line number holds no colon,
      so the last colon separates file from line. */
  lemma RenderInjective(x: Entry, y: Entry)
    requires Render(x) == Render(y)
    ensures x == y
  {
    var dx, dy := ToDecimal(x.line), ToDecimal(y.line);
    var s := Render(x);
    ToDecimalDigits(x.line);
    ToDecimalDigits(y.line);
    forall j | |x.file| < j < |s|
      ensures s[j] != ':'
    {
      assert s[j] == dx[j - |x.file| - 1];
    }
    LastIndexOfIs(s, ':', |x.file|);
    forall j | |y.file| < j < |s|
      ensures s[j] != ':'
    {
      assert Render(y)[j] == dy[j - |y.file| - 1];
    }
    LastIndexOfIs(Render(y), ':', |y.file|);
    assert dx == s[|s| - |dx|..] == dy;
    assert x.file == s[..|x.file|] == y.file;
    ToDecimalInjective(x.line, y.line);
  }

  /** The line printed for an address whose entry differs from the previous one. */
  function DumpLine(vaddr: u64, e: Entry): string
  {
    "0x" + ToHex(vaddr) + ": " + Render(e)
  }

  /** The loop of `dump_vaddr_entry_map` over the keys in `keys`, `prev` being
      the last rendered entry. */
  function DumpFrom(m: VaddrEntryMap, keys: seq<u64>, prev: string): seq<string>
    requires forall i :: 0 <= i < |keys| ==> keys[i] in m
  {
    if |keys| == 0 then []
    else
      var curr := Render(m[keys[0]]);
      if prev != curr then [DumpLine(keys[0], m[keys[0]])] + DumpFrom(m, keys[1..], curr)
      else DumpFrom(m, keys[1..], prev)
  }

  /** The keys of `m` in ascending order, as a `BTreeMap` yields them. */
  ghost function SortedAddresses(m: VaddrEntryMap): (keys: seq<u64>)
    ensures StrictlySorted(keys, AddressLt)
    ensures forall i :: 0 <= i < |keys| ==> keys[i] in m
    ensures forall a :: a in m ==> a in keys
  {
    assert StrictTotal(AddressLt);
    Enumerate(m.Keys, AddressLt)
  }

  predicate AddressLt(a: u64, b: u64)
  {
    a < b
  }

  /** `dump_vaddr_entry_map(m)`: the lines it prints to standard error. */
  ghost function DumpVaddrEntryMap(m: VaddrEntryMap): seq<string>
  {
    DumpFrom(m, SortedAddresses(m), "")
  }

  /** Reference definition of the dump: in ascending address order, one line
      for each address whose entry differs from that of the previous address. */
  function EntryChanges(m: VaddrEntryMap, keys: seq<u64>, i: nat): seq<string>
    requires forall j :: 0 <= j < |keys| ==> keys[j] in m
    requires i <= |keys|
    decreases |keys| - i
  {
    if i == |keys| then []
    else
      (if i == 0 || m[keys[i]] != m[keys[i - 1]] then [DumpLine(keys[i], m[keys[i]])] else [])
      + EntryChanges(m, keys, i + 1)
  }

  /** Comparing rendered strings, as the source does, prints exactly where
      the entry changes. */
  lemma {:induction false} DumpFromIsEntryChanges(m: VaddrEntryMap, keys: seq<u64>, i: nat, prev: string)
    requires forall j :: 0 <= j < |keys| ==> keys[j] in m
    requires i <= |keys|
    requires i == 0 ==> prev == ""
    requires i > 0 ==> prev == Render(m[keys[i - 1]])
    ensures DumpFrom(m, keys[i..], prev) == EntryChanges(m, keys, i)
    decreases |keys| - i
  {
    if i < |keys| {
      var curr := Render(m[keys[i]]);
      assert keys[i..][0] == keys[i] && keys[i..][1..] == keys[i + 1..];
      if i > 0 {
        if prev == curr {
          RenderInjective(m[keys[i - 1]], m[keys[i]]);
        }
      } else {
        assert curr != "";
      }
      if prev != curr {
        DumpFromIsEntryChanges(m, keys, i + 1, curr);
      } else {
        DumpFromIsEntryChanges(m, keys, i + 1, prev);
      }
    }
  }

  lemma DumpPrintsEntryChanges(m: VaddrEntryMap)
    ensures DumpVaddrEntryMap(m) == EntryChanges(m, SortedAddresses(m), 0)
  {
    var keys := SortedAddresses(m);
    assert keys[0..] == keys;
    DumpFromIsEntryChanges(m, keys, 0, "");
  }
}

=== FILE: engine.dfy ===
/** The driver in `src/lib.rs`: `build_dwarf`, `process_pcs_path` and `run`.
    Everything the driver obtains from outside the process is a field of
    `World`. */
module Engine {
  import opened Wrappers
  import opened Words
  import opened Paths
  import opened Io
  import opened Util
  import opened StartAddress
  import opened Trace
  import opened DebugMap
  import opened Matcher
  import opened Aggregate
  import opened Lcov

  /** What the driver observes:
      - `fs`: the files it reads (`.debug`, `.so`, `.pcs`, `.insns`);
      - `deployListing`: `target/deploy` as found through `cargo metadata`;
      - `objdump`: the standard output of `objdump -f` for a debug file;
      - `loaderFor`: `addr2line::Loader::new` for a debug file;
      - `filters`: `try_exists`, `CARGO_HOME` and `INCLUDE_CARGO`;
      - `traceListing`: the trace directory;
      - `currentDir`: `std::env::current_dir()`. */
  datatype World = World(
    fs: FileSystem,
    deployListing: Listing,
    objdump: Path -> Result<string, Error>,
    loaderFor: Path -> Result<Loader, Error>,
    filters: Filters,
    traceListing: Listing,
    currentDir: Result<Path, Error>)

  /** `build_dwarf(debug_path)`. */
  function BuildDwarf(w: World, debugPath: Path): (r: Result<Dwarf, Error>)
    ensures r.Ok? ==>
              && r.value.path == debugPath
              && StartAddressOf(debugPath, w.objdump(debugPath)) == Ok(r.value.startAddress)
              && w.loaderFor(debugPath).Ok?
              && BuildVaddrEntryMap(w.loaderFor(debugPath).value, w.filters, w.fs, debugPath) == Ok(r.value.vaddrEntryMap)
    ensures r.Ok? <==>
              && StartAddressOf(debugPath, w.objdump(debugPath)).Ok?
              && w.loaderFor(debugPath).Ok?
              && BuildVaddrEntryMap(w.loaderFor(debugPath).value, w.filters, w.fs, debugPath).Ok?
    ensures StartAddressOf(debugPath, w.objdump(debugPath)).Err? ==>
              r == Err(StartAddressOf(debugPath, w.objdump(debugPath)).error)
    ensures StartAddressOf(debugPath, w.objdump(debugPath)).Ok? && w.loaderFor(debugPath).Err? ==>
              r == Err(w.loaderFor(debugPath).error)
    ensures StartAddressOf(debugPath, w.objdump(debugPath)).Ok? && w.loaderFor(debugPath).Ok?
            && BuildVaddrEntryMap(w.loaderFor(debugPath).value, w.filters, w.fs, debugPath).Err? ==>
              r == Err(BuildVaddrEntryMap(w.loaderFor(debugPath).value, w.filters, w.fs, debugPath).error)
  {
    var start :- StartAddressOf(debugPath, w.objdump(debugPath));
    var loader :- w.loaderFor(debugPath);
    var m :- BuildVaddrEntryMap(loader, w.filters, w.fs, debugPath);
    Ok(Dwarf(debugPath, start, m))
  }

  /** `debug_paths.map(build_dwarf).collect::<Result<Vec<_>>>()`. */
  function BuildDwarfs(w: World, paths: seq<Path>): Result<seq<Dwarf>, Error>
  {
    CollectResults(paths, p => BuildDwarf(w, p))
  }

  /** The candidates of `run`: one per `.debug` file of `target/deploy`, in
      listing order; the listing failing or any one build failing aborts. */
  function Candidates(w: World): (r: Result<seq<Dwarf>, Error>)
    ensures var paths := FilesWithExtension(w.deployListing, "debug");
      r.Err? <==> paths.Err? || exists i :: 0 <= i < |paths.value| && BuildDwarf(w, paths.value[i]).Err?
    ensures var paths := FilesWithExtension(w.deployListing, "debug");
      paths.Err? ==> r == Err(paths.error)
    ensures var paths := FilesWithExtension(w.deployListing, "debug");
      paths.Ok? && r.Err? ==>
        exists i :: 0 <= i < |paths.value| && BuildDwarf(w, paths.value[i]) == Err(r.error)
                    && forall j :: 0 <= j < i ==> BuildDwarf(w, paths.value[j]).Ok?
    ensures r.Ok? ==>
              var paths := FilesWithExtension(w.deployListing, "debug").value;
              && |r.value| == |paths|
              && forall i :: 0 <= i < |paths| ==> BuildDwarf(w, paths[i]) == Ok(r.value[i]) && r.value[i].path == paths[i]
  {
    var debugPaths :- FilesWithExtension(w.deployListing, "debug");
    BuildDwarfs(w, debugPaths)
  }

  /** `Outcome`, with what is written: the `.lcov` lines, or the contents of
      the `.closest_match` report. */
  datatype Outcome =
    | LcovFile(path: Path, lines: seq<string>)
    | ClosestMatchFile(path: Path, pcsPath: Path, debugPath: Path, mismatch: Mismatch)

  /** The count map written for a trace that matched `dwarf` exactly, once
      the trace has been shifted. */
  function CountsFor(dwarf: Dwarf, shifted: seq<u64>): CountMap
  {
    BuildFileLineCountMap(dwarf.vaddrEntryMap, Survivors(dwarf.vaddrEntryMap, shifted))
  }

  /** The trace can be read and some candidate matches it exactly. */
  predicate HasExactMatch(dwarfs: seq<Dwarf>, pcsPath: Path, fs: FileSystem)
  {
    && pcsPath in fs
    && exists k :: 0 <= k < |dwarfs| && ExactMatch(DecodeVaddrs(fs[pcsPath]), dwarfs[k], pcsPath, fs)
  }

  /** `process_pcs_path(dwarfs, pcs_path)`. The source's `assert!` that the
      first shifted address is the start address holds
      (`Matcher.ShiftAlignsFirstAddress`). */
  ghost function ProcessPcsPath(dwarfs: seq<Dwarf>, pcsPath: Path, fs: FileSystem): (r: Result<Outcome, Error>)
    requires |dwarfs| > 0
    ensures pcsPath !in fs ==> r == Err(NotFound(pcsPath))
    ensures pcsPath in fs ==>
              var sel := FindApplicableDwarf(dwarfs, pcsPath, DecodeVaddrs(fs[pcsPath]), fs);
              && (r.Err? <==> sel.Err?)
              && (sel.Err? ==> r == Err(sel.error))
    ensures r.Ok? ==> (r.value.LcovFile? <==> HasExactMatch(dwarfs, pcsPath, fs))
    ensures r.Ok? ==> pcsPath in fs
    ensures r.Ok? && r.value.LcovFile? ==>
              && r.value.path == WithExtension(pcsPath, "lcov")
              && exists k :: 0 <= k < |dwarfs| && ExactMatch(DecodeVaddrs(fs[pcsPath]), dwarfs[k], pcsPath, fs)
    ensures r.Ok? && r.value.ClosestMatchFile? ==>
              && r.value.path == WithExtension(pcsPath, "closest_match")
              && r.value.pcsPath == pcsPath
              && forall k :: 0 <= k < |dwarfs| ==> !ExactMatch(DecodeVaddrs(fs[pcsPath]), dwarfs[k], pcsPath, fs)
  {
    var vaddrs :- ReadVaddrs(fs, pcsPath);
    var sel :- FindApplicableDwarf(dwarfs, pcsPath, vaddrs, fs);
    var dwarf := dwarfs[sel.dwarf];
    match sel.mismatch
    case Some(mismatch) =>
      Ok(ClosestMatchFile(WithExtension(pcsPath, "closest_match"), pcsPath, dwarf.path, mismatch))
    case None =>
      Ok(LcovFile(WithExtension(pcsPath, "lcov"), WriteLcovFile(CountsFor(dwarf, sel.vaddrs))))
  }

  /** End to end: when a trace matches a candidate exactly, the `.lcov` file
      written for it reads back as the count map whose every count is the
      number of maximal runs of the shifted trace that map to that line. */
  lemma LcovReportsRuns(dwarfs: seq<Dwarf>, pcsPath: Path, fs: FileSystem, sel: Selection)
    requires |dwarfs| > 0 && pcsPath in fs
    requires FindApplicableDwarf(dwarfs, pcsPath, DecodeVaddrs(fs[pcsPath]), fs) == Ok(sel)
    requires sel.mismatch.None?
    ensures var r := ProcessPcsPath(dwarfs, pcsPath, fs);
      && r.Ok? && r.value.LcovFile?
      && ReportsRuns(r.value.lines, dwarfs[sel.dwarf].vaddrEntryMap, sel.vaddrs)
  {
    var m := dwarfs[sel.dwarf].vaddrEntryMap;
    WrittenCountsReportRuns(m, sel.vaddrs);
  }

  /** When no candidate matches exactly, the trace's `.closest_match` file
      reports the selected candidate and its mismatch. */
  lemma ClosestMatchReported(dwarfs: seq<Dwarf>, pcsPath: Path, fs: FileSystem, sel: Selection, m: Mismatch)
    requires |dwarfs| > 0 && pcsPath in fs
    requires FindApplicableDwarf(dwarfs, pcsPath, DecodeVaddrs(fs[pcsPath]), fs) == Ok(sel)
    requires sel.mismatch == Some(m)
    ensures ProcessPcsPath(dwarfs, pcsPath, fs)
              == Ok(ClosestMatchFile(WithExtension(pcsPath, "closest_match"), pcsPath, dwarfs[sel.dwarf].path, m))
  {
  }

  /** `e` is the error of the first trace that cannot be processed. */
  ghost predicate FirstFailingTrace(dwarfs: seq<Dwarf>, pcsPaths: seq<Path>, fs: FileSystem, e: Error)
    requires |dwarfs| > 0
  {
    exists i :: 0 <= i < |pcsPaths| && ProcessPcsPath(dwarfs, pcsPaths[i], fs) == Err(e)
                && forall j :: 0 <= j < i ==> ProcessPcsPath(dwarfs, pcsPaths[j], fs).Ok?
  }

  /** The `for pcs_path in &pcs_paths` loop: the first failure aborts. */
  ghost function ProcessAll(dwarfs: seq<Dwarf>, pcsPaths: seq<Path>, fs: FileSystem): (r: Result<seq<Outcome>, Error>)
    requires |dwarfs| > 0
    ensures r.Ok? <==> forall i :: 0 <= i < |pcsPaths| ==> ProcessPcsPath(dwarfs, pcsPaths[i], fs).Ok?
    ensures r.Ok? ==> |r.value| == |pcsPaths| && forall i :: 0 <= i < |pcsPaths| ==> ProcessPcsPath(dwarfs, pcsPaths[i], fs) == Ok(r.value[i])
    ensures r.Err? ==> FirstFailingTrace(dwarfs, pcsPaths, fs, r.error)
  {
    CollectResults(pcsPaths, p => ProcessPcsPath(dwarfs, p, fs))
  }

  /** What `run` reports on success. */
  datatype Report =
    | NoDebugFiles
    | DebugDump(lines: seq<string>)
    | Processed(pcsCount: nat, lcovPaths: seq<Path>, closestMatchPaths: seq<Path>)

  function LcovPaths(os: seq<Outcome>, currentDir: Result<Path, Error>): (r: seq<Path>)
    ensures |r| <= |os|
  {
    if |os| == 0 then []
    else (if os[0].LcovFile? then [StripCurrentDir(os[0].path, currentDir)] else []) + LcovPaths(os[1..], currentDir)
  }

  function ClosestMatchPaths(os: seq<Outcome>, currentDir: Result<Path, Error>): (r: seq<Path>)
    ensures |r| <= |os|
  {
    if |os| == 0 then []
    else (if os[0].ClosestMatchFile? then [StripCurrentDir(os[0].path, currentDir)] else []) + ClosestMatchPaths(os[1..], currentDir)
  }

  /** Reference definition of the two listings `run` prints: in trace order,
      the `.lcov` file of every trace some candidate matches exactly, and the
      `.closest_match` file of every other trace, relative to the current
      directory. */
  function LcovListing(dwarfs: seq<Dwarf>, pcsPaths: seq<Path>, fs: FileSystem, currentDir: Result<Path, Error>): seq<Path>
  {
    if |pcsPaths| == 0 then []
    else
      (if HasExactMatch(dwarfs, pcsPaths[0], fs) then [StripCurrentDir(WithExtension(pcsPaths[0], "lcov"), currentDir)] else [])
      + LcovListing(dwarfs, pcsPaths[1..], fs, currentDir)
  }

  function ClosestMatchListing(dwarfs: seq<Dwarf>, pcsPaths: seq<Path>, fs: FileSystem, currentDir: Result<Path, Error>): seq<Path>
  {
    if |pcsPaths| == 0 then []
    else
      (if HasExactMatch(dwarfs, pcsPaths[0], fs) then [] else [StripCurrentDir(WithExtension(pcsPaths[0], "closest_match"), currentDir)])
      + ClosestMatchListing(dwarfs, pcsPaths[1..], fs, currentDir)
  }

  /** `o` is the outcome the trace `pcsPath` calls for: its `.lcov` file when
      some candidate matches it exactly, its `.closest_match` file otherwise. */
  predicate OutcomeFits(dwarfs: seq<Dwarf>, pcsPath: Path, fs: FileSystem, o: Outcome)
  {
    && (o.LcovFile? <==> HasExactMatch(dwarfs, pcsPath, fs))
    && o.path == WithExtension(pcsPath, if o.LcovFile? then "lcov" else "closest_match")
  }

  lemma OutcomesFit(dwarfs: seq<Dwarf>, pcsPaths: seq<Path>, fs: FileSystem, os: seq<Outcome>)
    requires |dwarfs| > 0 && |os| == |pcsPaths|
    requires forall i :: 0 <= i < |os| ==> ProcessPcsPath(dwarfs, pcsPaths[i], fs) == Ok(os[i])
    ensures forall i :: 0 <= i < |os| ==> OutcomeFits(dwarfs, pcsPaths[i], fs, os[i])
  {
  }

  /** The paths collected from the outcomes are the reference listings. */
  lemma {:induction false} ListingsOfOutcomes(dwarfs: seq<Dwarf>, pcsPaths: seq<Path>, fs: FileSystem, os: seq<Outcome>, currentDir: Result<Path, Error>)
    requires |os| == |pcsPaths|
    requires forall i :: 0 <= i < |os| ==> OutcomeFits(dwarfs, pcsPaths[i], fs, os[i])
    ensures LcovPaths(os, currentDir) == LcovListing(dwarfs, pcsPaths, fs, currentDir)
    ensures ClosestMatchPaths(os, currentDir) == ClosestMatchListing(dwarfs, pcsPaths, fs, currentDir)
  {
    if |os| > 0 {
      assert OutcomeFits(dwarfs, pcsPaths[0], fs, os[0]);
      assert forall i :: 0 <= i < |os| - 1 ==> os[1..][i] == os[i + 1] && pcsPaths[1..][i] == pcsPaths[i + 1];
      ListingsOfOutcomes(dwarfs, pcsPaths[1..], fs, os[1..], currentDir);
    }
  }

  lemma {:induction false} EveryTraceHasOneOutcome(os: seq<Outcome>, currentDir: Result<Path, Error>)
    ensures |LcovPaths(os, currentDir)| + |ClosestMatchPaths(os, currentDir)| == |os|
  {
    if |os| > 0 {
      EveryTraceHasOneOutcome(os[1..], currentDir);
    }
  }

  /** The dumps of every candidate's map, in candidate order. */
  ghost function DumpAll(dwarfs: seq<Dwarf>): (r: seq<string>)
    ensures |dwarfs| == 1 ==>
              var m := dwarfs[0].vaddrEntryMap;
              r == EntryChanges(m, SortedAddresses(m), 0)
  {
    if |dwarfs| == 0 then []
    else
      DumpPrintsEntryChanges(dwarfs[0].vaddrEntryMap);
      DumpVaddrEntryMap(dwarfs[0].vaddrEntryMap) + DumpAll(dwarfs[1..])
  }

  /** The dump of a list of candidates is the dump of its first part followed
      by that of the rest: with `DumpAll` of one candidate, each candidate
      contributes its own entry changes, in candidate order. */
  lemma {:induction false} DumpAllAppend(a: seq<Dwarf>, b: seq<Dwarf>)
    ensures DumpAll(a + b) == DumpAll(a) + DumpAll(b)
  {
    if |a| > 0 {
      assert (a + b)[0] == a[0] && (a + b)[1..] == a[1..] + b;
      DumpAllAppend(a[1..], b);
    } else {
      assert a + b == b;
    }
  }

  /** `run` fails: the candidates cannot be built, or, when there is one and
      the run is not a debug dump, the trace directory cannot be listed or
      some trace cannot be processed. */
  ghost predicate RunFails(w: World, debug: bool)
  {
    var dwarfs := Candidates(w);
    var pcsPaths := FilesWithExtension(w.traceListing, "pcs");
    || dwarfs.Err?
    || (&& |dwarfs.value| > 0 && !debug
        && (|| pcsPaths.Err?
            || exists i :: 0 <= i < |pcsPaths.value| && ProcessPcsPath(dwarfs.value, pcsPaths.value[i], w.fs).Err?))
  }

  /** `run(sbf_trace_dir, debug)`. */
  ghost function Run(w: World, debug: bool): (r: Result<Report, Error>)
    ensures w.deployListing.Err? ==> r == Err(w.deployListing.error)
    ensures r.Err? <==> RunFails(w, debug)
    ensures r == Ok(NoDebugFiles) <==> FilesWithExtension(w.deployListing, "debug") == Ok([])
    ensures r.Ok? && r.value.DebugDump? ==> debug && Candidates(w).Ok? && r.value.lines == DumpAll(Candidates(w).value)
    ensures Candidates(w).Err? ==> r == Err(Candidates(w).error)
    ensures Candidates(w).Ok? && |Candidates(w).value| > 0 && !debug ==>
              var pcsPaths := FilesWithExtension(w.traceListing, "pcs");
              && (pcsPaths.Err? ==> r == Err(pcsPaths.error))
              && (pcsPaths.Ok? && r.Err? ==> FirstFailingTrace(Candidates(w).value, pcsPaths.value, w.fs, r.error))
    ensures r.Ok? && r.value.Processed? ==>
              && !debug
              && Candidates(w).Ok? && |Candidates(w).value| > 0
              && FilesWithExtension(w.traceListing, "pcs").Ok?
              && var dwarfs := Candidates(w).value;
                 var pcsPaths := FilesWithExtension(w.traceListing, "pcs").value;
                 && r.value.pcsCount == |pcsPaths|
                 && (forall i :: 0 <= i < |pcsPaths| ==> ProcessPcsPath(dwarfs, pcsPaths[i], w.fs).Ok?)
                 && r.value.lcovPaths == LcovListing(dwarfs, pcsPaths, w.fs, w.currentDir)
                 && r.value.closestMatchPaths == ClosestMatchListing(dwarfs, pcsPaths, w.fs, w.currentDir)
                 && |r.value.lcovPaths| + |r.value.closestMatchPaths| == r.value.pcsCount
  {
    var dwarfs :- Candidates(w);
    if |dwarfs| == 0 then Ok(NoDebugFiles)
    else if debug then Ok(DebugDump(DumpAll(dwarfs)))
    else
      var pcsPaths :- FilesWithExtension(w.traceListing, "pcs");
      var outcomes :- ProcessAll(dwarfs, pcsPaths, w.fs);
      EveryTraceHasOneOutcome(outcomes, w.currentDir);
      OutcomesFit(dwarfs, pcsPaths, w.fs, outcomes);
      ListingsOfOutcomes(dwarfs, pcsPaths, w.fs, outcomes, w.currentDir);
      Ok(Processed(|pcsPaths|, LcovPaths(outcomes, w.currentDir), ClosestMatchPaths(outcomes, w.currentDir)))
  }

  /** Setting `INCLUDE_CARGO` changes no count of a line reported without it,
      for a fixed shifted trace: the extra entries are for files under
      `CARGO_HOME`. */
  lemma {:induction false} IncludeCargoKeepsReportedCounts(loader: Loader, f: Filters, fs: FileSystem, debugPath: Path, shifted: seq<u64>, v: u64)
    requires var without := BuildVaddrEntryMap(loader, f.(includeCargo := false), fs, debugPath);
      without.Ok? && v in without.value
    ensures var without := BuildVaddrEntryMap(loader, f.(includeCargo := false), fs, debugPath).value;
      var with := BuildVaddrEntryMap(loader, f.(includeCargo := true), fs, debugPath).value;
      var e := without[v];
      var cw := BuildFileLineCountMap(with, Survivors(with, shifted));
      var co := BuildFileLineCountMap(without, Survivors(without, shifted));
      && e.file in cw && e.line in cw[e.file]
      && cw[e.file][e.line] == co[e.file][e.line]
  {
    IncludeCargoOnlyAdds(loader, f, fs, debugPath);
    var without := BuildVaddrEntryMap(loader, f.(includeCargo := false), fs, debugPath).value;
    var with := BuildVaddrEntryMap(loader, f.(includeCargo := true), fs, debugPath).value;
    IncludeCargoKeepsLineCount(without, with, f.cargoHome, shifted, v);
  }
}

=== FILE: hex.dfy ===
/** Number formatting and parsing: Rust's `{:x}`, `{:016x}`, `{}` on integers
    and `u64::from_str_radix(_, 16)`. */
module Hex {
  import opened Wrappers
  import opened Words

  const LOWER_HEX_DIGITS: string := "0123456789abcdef"
  const DECIMAL_DIGITS: string := "0123456789"

  function Pow16(n: nat): (p: nat)
    ensures p > 0
  {
    if n == 0 then 1 else 16 * Pow16(n - 1)
  }

  /** The lower-case hex digit for `d`. */
  function Digit(d: nat): char
    requires d < 16
  {
    LOWER_HEX_DIGITS[d]
  }

  /** Rust's `char::to_digit(16)`: both cases are accepted. */
  function DigitValue(c: char): (r: Option<nat>)
    ensures r.Some? ==> r.value < 16
  {
    if '0' <= c <= '9' then Some(c as nat - '0' as nat)
    else if 'a' <= c <= 'f' then Some(c as nat - 'a' as nat + 10)
    else if 'A' <= c <= 'F' then Some(c as nat - 'A' as nat + 10)
    else None
  }

  lemma DigitValueOfDigit(d: nat)
    requires d < 16
    ensures DigitValue(Digit(d)) == Some(d)
  {
  }

  /** `{:0width$x}` for a value with at most `width` digits: exactly `width`
      lower-case digits, most significant first, zero padded. */
  function PadHex(w: nat, width: nat): (s: string)
    ensures |s| == width
  {
    if width == 0 then "" else PadHex(w / 16, width - 1) + [Digit(w % 16)]
  }

  /** `{:x}`: lower-case hex without padding; zero is "0". */
  function ToHex(n: nat): (s: string)
    ensures |s| > 0
  {
    if n < 16 then [Digit(n)] else ToHex(n / 16) + [Digit(n % 16)]
  }

  /** The value of a string of hex digits, most significant first; `None` when
      some character is not a hex digit. The empty string has value 0. */
  function DigitsValue(s: string): Option<nat>
  {
    if |s| == 0 then Some(0)
    else
      var init :- DigitsValue(s[..|s| - 1]);
      var last :- DigitValue(s[|s| - 1]);
      Some(init * 16 + last)
  }

  /** Rust's `u64::from_str_radix(s, 16)`: an optional leading `+`, then at
      least one hex digit of either case, with a value that fits in 64 bits.
      Every error kind is `None` here. */
  function ParseU64Radix16(s: string): (r: Option<u64>)
    ensures r.Some? ==> |s| > 0
  {
    if |s| == 0 then None
    else
      var digits := if s[0] == '+' then s[1..] else s;
      if |digits| == 0 then None
      else
        match DigitsValue(digits)
        case Some(v) => if v < U64_LIMIT then Some(v) else None
        case None => None
  }

  lemma {:induction false} DigitsValueOfPadHex(w: nat, width: nat)
    requires w < Pow16(width)
    ensures DigitsValue(PadHex(w, width)) == Some(w)
  {
    if width > 0 {
      var s := PadHex(w, width);
      assert s[..|s| - 1] == PadHex(w / 16, width - 1);
      DigitsValueOfPadHex(w / 16, width - 1);
      DigitValueOfDigit(w % 16);
    }
  }

  lemma {:induction false} DigitsValueOfToHex(n: nat)
    ensures DigitsValue(ToHex(n)) == Some(n)
  {
    var s := ToHex(n);
    if n < 16 {
      assert s[..|s| - 1] == "";
      DigitValueOfDigit(n);
    } else {
      assert s[..|s| - 1] == ToHex(n / 16);
      DigitsValueOfToHex(n / 16);
      DigitValueOfDigit(n % 16);
    }
  }

  /** Every character `ToHex` prints is a lower-case hex digit. */
  lemma {:induction false} ToHexDigits(n: nat)
    ensures forall i :: 0 <= i < |ToHex(n)| ==> ToHex(n)[i] in LOWER_HEX_DIGITS
  {
    if n >= 16 {
      ToHexDigits(n / 16);
    }
  }

  /** `ToHex` prints no leading zero, except for zero itself, which is "0". */
  lemma {:induction false} ToHexNoLeadingZero(n: nat)
    ensures ToHex(n)[0] == '0' <==> n == 0
    ensures n == 0 ==> ToHex(n) == "0"
  {
    if n >= 16 {
      ToHexNoLeadingZero(n / 16);
    }
  }

  /** Parsing what `{:x}` prints gives back the value. */
  lemma ParseToHex(n: u64)
    ensures ParseU64Radix16(ToHex(n)) == Some(n)
  {
    var s := ToHex(n);
    DigitsValueOfToHex(n);
    ToHexDigits(n);
    assert s[0] in LOWER_HEX_DIGITS;
    assert s[0] != '+';
  }

  lemma Pow16Is2To64()
    ensures Pow16(16) == U64_LIMIT
  {
    assert Pow16(4) == 0x1_0000;
    assert Pow16(8) == 0x1_0000_0000;
    assert Pow16(12) == 0x1_0000_0000_0000;
  }

  /** A string with its upper-case hex letters made lower-case. */
  function LowerChar(c: char): char
  {
    if 'A' <= c <= 'F' then (c as int - 'A' as int + 'a' as int) as char else c
  }

  function LowerCase(s: string): string
  {
    seq(|s|, i requires 0 <= i < |s| => LowerChar(s[i]))
  }

  /** A character that is not a digit makes the whole string a non-number. */
  lemma {:induction false} DigitsValueNone(s: string, k: nat)
    requires k < |s| && DigitValue(s[k]).None?
    ensures DigitsValue(s) == None
  {
    if k < |s| - 1 {
      assert s[..|s| - 1][k] == s[k];
      DigitsValueNone(s[..|s| - 1], k);
    }
  }

  lemma {:induction false} DigitsValueLowerCase(s: string)
    ensures DigitsValue(LowerCase(s)) == DigitsValue(s)
  {
    if |s| > 0 {
      assert LowerCase(s)[..|s| - 1] == LowerCase(s[..|s| - 1]);
      DigitsValueLowerCase(s[..|s| - 1]);
    }
  }

  /** Every digit string whose value fits in 64 bits is accepted, with or
      without a leading `+`. */
  lemma ParseAccepts(s: string, v: nat)
    requires |s| > 0 && DigitsValue(s) == Some(v) && v < U64_LIMIT
    ensures ParseU64Radix16(s) == Some(v)
    ensures ParseU64Radix16("+" + s) == Some(v)
  {
    if s[0] == '+' {
      DigitsValueNone(s, 0);
    }
    assert ("+" + s)[1..] == s;
  }

  /** A leading `+` before a non-empty string without one changes nothing. */
  lemma ParseSkipsPlus(s: string)
    requires |s| > 0 && s[0] != '+'
    ensures ParseU64Radix16("+" + s) == ParseU64Radix16(s)
  {
    assert ("+" + s)[1..] == s;
  }

  lemma LowerCaseDrop(s: string)
    requires |s| > 0
    ensures LowerCase(s)[1..] == LowerCase(s[1..])
  {
  }

  /** Upper-case and lower-case digits are read alike. */
  lemma ParseIgnoresCase(s: string)
    ensures ParseU64Radix16(LowerCase(s)) == ParseU64Radix16(s)
  {
    if |s| > 0 {
      var l := LowerCase(s);
      assert l[0] == LowerChar(s[0]);
      if s[0] == '+' {
        LowerCaseDrop(s);
        DigitsValueLowerCase(s[1..]);
      } else {
        assert l[0] != '+';
        DigitsValueLowerCase(s);
      }
    }
  }

  /** The empty string, a lone `+` and anything starting with `-` (there is
      no sign for an unsigned type) are rejected. */
  lemma ParseRejects(s: string)
    requires |s| == 0 || s == "+" || s[0] == '-'
    ensures ParseU64Radix16(s) == None
  {
    if |s| > 0 && s[0] == '-' {
      DigitsValueNone(s, 0);
    }
  }

  /** A digit string whose value is 2^64 or more is rejected, with or
      without a leading `+`. */
  lemma ParseRejectsOverflow(s: string, v: nat)
    requires DigitsValue(s) == Some(v) && v >= U64_LIMIT
    ensures ParseU64Radix16(s) == None
    ensures ParseU64Radix16("+" + s) == None
  {
    assert |s| > 0;
    if s[0] == '+' {
      DigitsValueNone(s, 0);
    }
    assert ("+" + s)[1..] == s;
  }

  /** Two hex digits per byte, in the given byte order: a hex dump. */
  function HexDump(bs: seq<byte>): (s: string)
    ensures |s| == 2 * |bs|
  {
    if |bs| == 0 then "" else HexDump(bs[..|bs| - 1]) + PadHex(bs[|bs| - 1], 2)
  }

  /** Two more digits of padding are the next two low digits. */
  lemma PadHexTwoMore(w: nat, width: nat)
    ensures PadHex(w, width + 2) == PadHex(w / 16 / 16, width) + [Digit(w / 16 % 16), Digit(w % 16)]
  {
  }

  /** The digits of a value with one more low byte `b`. */
  lemma ByteDigits(x: nat, b: nat)
    requires b < 256
    ensures (x * 256 + b) / 16 / 16 == x
    ensures (x * 256 + b) / 16 % 16 == b / 16 % 16
    ensures (x * 256 + b) % 16 == b % 16
  {
    assert (x * 256 + b) / 16 == x * 16 + b / 16;
  }

  /** Zero-padded hex of a big-endian value is the hex dump of its bytes. */
  lemma {:induction false} PadHexOfBe(bs: seq<byte>)
    ensures PadHex(Be(bs), 2 * |bs|) == HexDump(bs)
  {
    if |bs| > 0 {
      var init := bs[..|bs| - 1];
      var b := bs[|bs| - 1];
      var w := Be(bs);
      assert w == Be(init) * 256 + b;
      PadHexOfBe(init);
      ByteDigits(Be(init), b as nat);
      PadHexTwoMore(w, 2 * |init|);
      PadHexTwoMore(b as nat, 0);
      var low := [Digit(b as nat / 16 % 16), Digit(b as nat % 16)];
      assert PadHex(b as nat, 2) == low;
      assert PadHex(w, 2 * |bs|) == HexDump(init) + low;
    }
  }

  /** `{}` on an unsigned integer: decimal without padding. */
  function ToDecimal(n: nat): (s: string)
    ensures |s| > 0
  {
    if n < 10 then [DECIMAL_DIGITS[n]] else ToDecimal(n / 10) + [DECIMAL_DIGITS[n % 10]]
  }

  /** Decimal formatting writes digits only. */
  lemma {:induction false} ToDecimalDigits(n: nat)
    ensures forall i :: 0 <= i < |ToDecimal(n)| ==> '0' <= ToDecimal(n)[i] <= '9'
  {
    if n >= 10 {
      ToDecimalDigits(n / 10);
    }
  }

  /** Decimal formatting is injective. */
  lemma {:induction false} ToDecimalInjective(a: nat, b: nat)
    requires ToDecimal(a) == ToDecimal(b)
    ensures a == b
  {
    var s := ToDecimal(a);
    if a >= 10 && b >= 10 {
      assert s[..|s| - 1] == ToDecimal(a / 10) == ToDecimal(b / 10);
      ToDecimalInjective(a / 10, b / 10);
    }
  }

  /** The value of one decimal digit character. */
  function DecimalDigit(ch: char): Option<nat>
  {
    if '0' <= ch <= '9' then Some(ch as int - '0' as int) else None
  }

  /** The value of a non-empty string of decimal digits; `None` for anything else. */
  function DecimalValue(s: string): Option<nat>
  {
    if |s| == 0 then None
    else match DecimalDigit(s[|s| - 1])
      case None => None
      case Some(d) =>
        if |s| == 1 then Some(d)
        else match DecimalValue(s[..|s| - 1])
          case None => None
          case Some(v) => Some(v * 10 + d)
  }

  /** The decimal digit of `d` has value `d`. */
  lemma DecimalDigitValue(d: nat)
    requires d < 10
    ensures DecimalDigit(DECIMAL_DIGITS[d]) == Some(d)
  {
  }

  lemma DivMod10(n: nat)
    ensures n % 10 < 10 && n / 10 * 10 + n % 10 == n
  {
  }

  /** One more digit at the end: ten times the value so far, plus the digit. */
  lemma DecimalValueSnoc(s: string, c: char, v: nat, d: nat)
    requires DecimalValue(s) == Some(v) && DecimalDigit(c) == Some(d)
    ensures DecimalValue(s + [c]) == Some(v * 10 + d)
  {
    var t := s + [c];
    assert t[|t| - 1] == c;
    assert t[..|t| - 1] == s;
  }

  /** Reading back a formatted count gives the count. */
  lemma {:induction false} DecimalValueOfToDecimal(n: nat)
    ensures DecimalValue(ToDecimal(n)) == Some(n)
  {
    var q, r := n / 10, n % 10;
    DivMod10(n);
    DecimalDigitValue(r);
    if n >= 10 {
      var init := ToDecimal(q);
      assert ToDecimal(n) == init + [DECIMAL_DIGITS[r]];
      DecimalValueOfToDecimal(q);
      DecimalValueSnoc(init, DECIMAL_DIGITS[r], q, r);
    }
  }
}

=== FILE: insn.dfy ===
/** `Insn`: a 64-bit instruction word as read little-endian from a binary,
    whose `Debug` output shows its bytes in file order. */
module Instructions {
  import opened Words
  import opened Hex

  /** `struct Insn(u64)`; `From<u64>` is the constructor. */
  datatype Insn = Insn(bits: u64)

  /** `Insn::default()`. */
  const DEFAULT_INSN: Insn := Insn(0)

  /** `format!("{:?}", insn)`, i.e. `0x{:016x}` of the byte-swapped word. */
  function Debug(i: Insn): (s: string)
    ensures |s| == 18 && s[..2] == "0x"
    ensures forall k :: 2 <= k < 18 ==> s[k] in LOWER_HEX_DIGITS
  {
    PadHexDigits(SwapBytes(i.bits), 16);
    "0x" + PadHex(SwapBytes(i.bits), 16)
  }

  lemma {:induction false} PadHexDigits(w: nat, width: nat)
    ensures forall k :: 0 <= k < width ==> PadHex(w, width)[k] in LOWER_HEX_DIGITS
  {
    if width > 0 {
      PadHexDigits(w / 16, width - 1);
    }
  }

  /** The digits are the hex dump of the word's bytes in the order they are
      stored in the file: least significant byte first. */
  lemma DebugIsHexDump(i: Insn)
    ensures Debug(i) == "0x" + HexDump(LeBytes(i.bits, 8))
  {
    PadHexOfBe(LeBytes(i.bits, 8));
  }

  /** For a word read at `offset` of a file, `Debug` prints exactly the eight
      bytes found there. */
  lemma DebugShowsFileBytes(bytes: seq<byte>, offset: nat)
    requires offset + 8 <= |bytes|
    ensures Debug(Insn(ReadU64(bytes, offset).value)) == "0x" + HexDump(bytes[offset..offset + 8])
  {
    DebugIsHexDump(Insn(ReadU64(bytes, offset).value));
  }

  /** Distinct words print differently. */
  lemma DebugInjective(a: Insn, b: Insn)
    requires Debug(a) == Debug(b)
    ensures a == b
  {
    var sa, sb := SwapBytes(a.bits), SwapBytes(b.bits);
    Pow16Is2To64();
    assert PadHex(sa, 16) == Debug(a)[2..] == Debug(b)[2..] == PadHex(sb, 16);
    DigitsValueOfPadHex(sa, 16);
    DigitsValueOfPadHex(sb, 16);
    SwapBytesInvolution(a.bits);
    SwapBytesInvolution(b.bits);
  }
}

=== FILE: io.dfy ===
/** Errors and the file system the model reads from. */
module Io {
  import opened Wrappers
  import opened Words
  import opened Paths

  /** What makes a run fail. Failures reported by collaborators that are not
      modelled (objdump, the DWARF loader, cargo, anchor, the OS) are
      `External`. */
  datatype Error =
    | NotFound(path: Path)
    | UnexpectedEof(path: Path)
    | AddOverflow
    | NoStartAddress(path: Path)
    | NoProgramCounterFiles(dir: Path)
    | External(what: string)

  /** A file's contents; its length is a `u64`, as `Metadata::len` reports it. */
  type File = bytes: seq<byte> | |bytes| < U64_LIMIT

  /** The contents of every readable file. */
  type FileSystem = map<Path, File>

  /** `File::open` followed by reading: fails exactly for absent paths. */
  function Open(fs: FileSystem, p: Path): (r: Result<File, Error>)
    ensures r.Ok? <==> p in fs
    ensures r.Ok? ==> r.value == fs[p]
    ensures r.Err? ==> r.error == NotFound(p)
  {
    if p in fs then Ok(fs[p]) else Err(NotFound(p))
  }

  /** `seek` to `offset` then `read_u64::<LittleEndian>()` on the file at
      `path`: a read that cannot fill eight bytes is an `UnexpectedEof`. */
  function ReadWordAt(file: File, path: Path, offset: nat): (r: Result<u64, Error>)
    ensures r.Ok? <==> offset + 8 <= |file|
    ensures r.Ok? ==> r.value == ReadU64(file, offset).value
    ensures r.Err? ==> r.error == UnexpectedEof(path)
  {
    match ReadU64(file, offset)
    case Some(w) => Ok(w)
    case None => Err(UnexpectedEof(path))
  }
}

=== FILE: lcov.dfy ===
/** `write_lcov_file` as a producer of lines: for every source file in
    ascending order a record `SF:<file>`, then `DA:<line>,<count>` for every
    line in ascending order, then `end_of_record`. A reader for that format
    recovers the count map from the lines, and the counts add up to the
    number of addresses tallied. */
module Lcov {
  import opened Wrappers
  import opened Words
  import opened Hex
  import opened Paths
  import opened Orders
  import opened DebugMap
  import opened Aggregate

  const END_OF_RECORD: string := "end_of_record"

  /** The source files of a count map, in `BTreeMap` order. */
  ghost function SortedFiles(counts: CountMap): (fs: seq<string>)
    ensures StrictlySorted(fs, StrLt)
    ensures forall f :: f in fs <==> f in counts
  {
    StrLtStrictTotal();
    Enumerate(counts.Keys, StrLt)
  }

  /** The lines of one file, in `BTreeMap` order. */
  ghost function SortedLines(c: map<nat, nat>): (ls: seq<nat>)
    ensures StrictlySorted(ls, NatLt)
    ensures forall l :: l in ls <==> l in c
  {
    NatLtStrictTotal();
    Enumerate(c.Keys, NatLt)
  }

  /** `DA:{line},{count}`. */
  function DaLine(line: nat, count: nat): string
  {
    "DA:" + ToDecimal(line) + "," + ToDecimal(count)
  }

  /** The `DA:` lines for `ls`, in that order. */
  function DaLines(c: map<nat, nat>, ls: seq<nat>): (r: seq<string>)
    requires forall i :: 0 <= i < |ls| ==> ls[i] in c
    ensures |r| == |ls|
  {
    if |ls| == 0 then [] else [DaLine(ls[0], c[ls[0]])] + DaLines(c, ls[1..])
  }

  /** One file's record. */
  ghost function Record(f: string, c: map<nat, nat>): seq<string>
  {
    ["SF:" + f] + DaLines(c, SortedLines(c)) + [END_OF_RECORD]
  }

  /** The records of the files `fs`, in that order. */
  ghost function Records(counts: CountMap, fs: seq<string>): seq<string>
    requires forall i :: 0 <= i < |fs| ==> fs[i] in counts
  {
    if |fs| == 0 then [] else Record(fs[0], counts[fs[0]]) + Records(counts, fs[1..])
  }

  /** `write_lcov_file(pcs_path, file_line_count_map)`: the lines written to
      the `.lcov` file, each terminated by a newline in the file. */
  ghost function WriteLcovFile(counts: CountMap): (lines: seq<string>)
    ensures |lines| >= 2 * |counts|
  {
    RecordsLength(counts, SortedFiles(counts));
    Records(counts, SortedFiles(counts))
  }

  lemma {:induction false} RecordsLength(counts: CountMap, fs: seq<string>)
    requires forall i :: 0 <= i < |fs| ==> fs[i] in counts
    ensures |Records(counts, fs)| >= 2 * |fs|
  {
    if |fs| > 0 {
      RecordsLength(counts, fs[1..]);
    }
  }

  /** Reads one `DA:<line>,<count>` line. */
  function ParseDa(s: string): Option<(nat, nat)>
  {
    if |s| < 3 || s[..3] != "DA:" then None
    else
      var body := s[3..];
      match LastIndexOf(body, ',')
      case None => None
      case Some(k) =>
        match (DecimalValue(body[..k]), DecimalValue(body[k + 1..]))
        case (Some(l), Some(n)) => Some((l, n))
        case _ => None
  }

  /** A reader for the records, between records: a record opens with `SF:`.
      Anything other than the three kinds of line, in that arrangement, is
      rejected. */
  function ParseOutside(lines: seq<string>): Option<CountMap>
    decreases |lines|
  {
    if |lines| == 0 then Some(map[])
    else if |lines[0]| >= 3 && lines[0][..3] == "SF:" then ParseInside(lines[1..], lines[0][3..], map[])
    else None
  }

  /** Inside the record of file `f`, with the lines `c` read so far: `DA:`
      lines until `end_of_record`. */
  function ParseInside(lines: seq<string>, f: string, c: map<nat, nat>): Option<CountMap>
    decreases |lines|
  {
    if |lines| == 0 then None
    else if lines[0] == END_OF_RECORD then Closed(ParseOutside(lines[1..]), f, c)
    else match ParseDa(lines[0])
      case None => None
      case Some((l, n)) => ParseInside(lines[1..], f, c[l := n])
  }

  /** What reading after `end_of_record` gives for the file `f` closed with `c`. */
  function Closed(rest: Option<CountMap>, f: string, c: map<nat, nat>): Option<CountMap>
  {
    match rest
    case None => None
    case Some(r) => Some(r[f := c])
  }

  function ParseLcov(lines: seq<string>): Option<CountMap>
  {
    ParseOutside(lines)
  }

  /** A `DA:` line reads back as its line and count. */
  lemma ParseDaLine(line: nat, count: nat)
    ensures ParseDa(DaLine(line, count)) == Some((line, count))
  {
    var a, b := ToDecimal(line), ToDecimal(count);
    var body := a + "," + b;
    ToDecimalDigits(count);
    assert DaLine(line, count)[..3] == "DA:";
    assert DaLine(line, count)[3..] == body;
    assert forall j :: |a| < j < |body| ==> body[j] == b[j - |a| - 1];
    LastIndexOfIs(body, ',', |a|);
    assert body[..|a|] == a;
    assert body[|a| + 1..] == b;
    DecimalValueOfToDecimal(line);
    DecimalValueOfToDecimal(count);
  }

  /** The entries of `c` at the lines `ls`. */
  function Restrict(c: map<nat, nat>, ls: seq<nat>): map<nat, nat>
    requires forall i :: 0 <= i < |ls| ==> ls[i] in c
  {
    map l | l in ls :: c[l]
  }

  lemma StepSf(lines: seq<string>, f: string)
    requires |lines| > 0 && lines[0] == "SF:" + f
    ensures ParseOutside(lines) == ParseInside(lines[1..], f, map[])
  {
    assert lines[0][..3] == "SF:" && lines[0][3..] == f;
  }

  lemma StepDa(lines: seq<string>, f: string, acc: map<nat, nat>, l: nat, n: nat)
    requires |lines| > 0 && lines[0] == DaLine(l, n)
    ensures ParseInside(lines, f, acc) == ParseInside(lines[1..], f, acc[l := n])
  {
    ParseDaLine(l, n);
    assert lines[0][0] == 'D' != END_OF_RECORD[0];
  }

  lemma StepEnd(lines: seq<string>, f: string, acc: map<nat, nat>)
    requires |lines| > 0 && lines[0] == END_OF_RECORD
    ensures ParseInside(lines, f, acc) == Closed(ParseOutside(lines[1..]), f, acc)
  {
  }

  lemma RestrictCons(c: map<nat, nat>, ls: seq<nat>, acc: map<nat, nat>)
    requires |ls| > 0 && forall i :: 0 <= i < |ls| ==> ls[i] in c
    ensures acc[ls[0] := c[ls[0]]] + Restrict(c, ls[1..]) == acc + Restrict(c, ls)
  {
  }

  /** Reading `DA:` lines adds their entries to the open record; the record
      is closed by `end_of_record` and the rest is read on its own. */
  lemma {:induction false} ParseDaLines(c: map<nat, nat>, ls: seq<nat>, f: string, acc: map<nat, nat>, rest: seq<string>)
    requires forall i :: 0 <= i < |ls| ==> ls[i] in c
    ensures ParseInside(DaLines(c, ls) + [END_OF_RECORD] + rest, f, acc) ==
            Closed(ParseOutside(rest), f, acc + Restrict(c, ls))
  {
    var lines := DaLines(c, ls) + [END_OF_RECORD] + rest;
    if |ls| == 0 {
      assert lines == [END_OF_RECORD] + rest;
      StepEnd(lines, f, acc);
      assert lines[1..] == rest;
      assert acc + Restrict(c, ls) == acc;
    } else {
      var l := ls[0];
      assert lines == [DaLine(l, c[l])] + (DaLines(c, ls[1..]) + [END_OF_RECORD] + rest);
      StepDa(lines, f, acc, l, c[l]);
      assert lines[1..] == DaLines(c, ls[1..]) + [END_OF_RECORD] + rest;
      ParseDaLines(c, ls[1..], f, acc[l := c[l]], rest);
      RestrictCons(c, ls, acc);
    }
  }

  /** The counts of the files `fs`. */
  function Select(counts: CountMap, fs: seq<string>): CountMap
    requires forall i :: 0 <= i < |fs| ==> fs[i] in counts
  {
    map f | f in fs :: counts[f]
  }

  lemma SelectCons(counts: CountMap, fs: seq<string>)
    requires |fs| > 0 && forall i :: 0 <= i < |fs| ==> fs[i] in counts
    ensures Select(counts, fs[1..])[fs[0] := counts[fs[0]]] == Select(counts, fs)
  {
  }

  lemma Regroup<T>(a: seq<T>, b: seq<T>, c: seq<T>, d: seq<T>)
    ensures a + b + c + d == a + (b + c + d)
  {
  }

  /** Restricting `c` to lines that are exactly its keys gives `c` back. */
  lemma RestrictAll(c: map<nat, nat>, ls: seq<nat>)
    requires forall l :: l in ls <==> l in c
    ensures map[] + Restrict(c, ls) == c
  {
  }

  /** A record written with the lines `ls` of `c`, followed by anything,
      reads as that file's counts added to what the rest reads as. */
  lemma ParseRecordWith(f: string, c: map<nat, nat>, ls: seq<nat>, rest: seq<string>)
    requires forall l :: l in ls <==> l in c
    ensures ParseOutside(["SF:" + f] + DaLines(c, ls) + [END_OF_RECORD] + rest) == Closed(ParseOutside(rest), f, c)
  {
    var body := DaLines(c, ls) + [END_OF_RECORD] + rest;
    var lines := ["SF:" + f] + DaLines(c, ls) + [END_OF_RECORD] + rest;
    Regroup(["SF:" + f], DaLines(c, ls), [END_OF_RECORD], rest);
    StepSf(lines, f);
    assert lines[1..] == body;
    ParseDaLines(c, ls, f, map[], rest);
    RestrictAll(c, ls);
  }

  /** One record, followed by anything, reads as that file's counts added
      to what the rest reads as. */
  lemma ParseRecord(f: string, c: map<nat, nat>, rest: seq<string>)
    ensures ParseOutside(Record(f, c) + rest) == Closed(ParseOutside(rest), f, c)
  {
    ParseRecordWith(f, c, SortedLines(c), rest);
  }

  /** Reading the records of `fs` gives back the counts of those files. */
  lemma {:induction false} ParseRecords(counts: CountMap, fs: seq<string>)
    requires forall i :: 0 <= i < |fs| ==> fs[i] in counts
    ensures ParseOutside(Records(counts, fs)) == Some(Select(counts, fs))
  {
    if |fs| == 0 {
      assert Select(counts, fs) == map[];
    } else {
      var rest := Records(counts, fs[1..]);
      assert Records(counts, fs) == Record(fs[0], counts[fs[0]]) + rest;
      ParseRecord(fs[0], counts[fs[0]], rest);
      ParseRecords(counts, fs[1..]);
      SelectCons(counts, fs);
    }
  }

  /** Round trip: reading the written `.lcov` lines gives back the count map. */
  lemma ParseWriteLcovFile(counts: CountMap)
    ensures ParseLcov(WriteLcovFile(counts)) == Some(counts)
  {
    var fs := SortedFiles(counts);
    ParseRecords(counts, fs);
    assert Select(counts, fs) == counts;
  }

  /** The sum of the counts of the lines `ls`. */
  function SumLines(c: map<nat, nat>, ls: seq<nat>): nat
    requires forall i :: 0 <= i < |ls| ==> ls[i] in c
  {
    if |ls| == 0 then 0 else c[ls[0]] + SumLines(c, ls[1..])
  }

  /** The sum of all counts of the files `fs`, each over its sorted lines. */
  ghost function SumFiles(counts: CountMap, fs: seq<string>): nat
    requires forall i :: 0 <= i < |fs| ==> fs[i] in counts
  {
    if |fs| == 0 then 0 else SumLines(counts[fs[0]], SortedLines(counts[fs[0]])) + SumFiles(counts, fs[1..])
  }

  /** The sum of the counts of all `DA:` lines written. */
  ghost function Total(counts: CountMap): nat
  {
    SumFiles(counts, SortedFiles(counts))
  }

  predicate Distinct<T(==)>(s: seq<T>)
  {
    forall i, j :: 0 <= i < j < |s| ==> s[i] != s[j]
  }

  lemma {:induction false} SortedFilesDistinct(counts: CountMap)
    ensures Distinct(SortedFiles(counts))
  {
    StrLtStrictTotal();
  }

  lemma SortedLinesDistinct(c: map<nat, nat>)
    ensures Distinct(SortedLines(c))
  {
  }

  /** Maps with the same lines are listed in the same order. */
  lemma SameKeysSameLines(c: map<nat, nat>, d: map<nat, nat>)
    requires c.Keys == d.Keys
    ensures SortedLines(c) == SortedLines(d)
  {
  }

  /** Count maps with the same files are listed in the same order. */
  lemma SameKeysSameFiles(counts: CountMap, other: CountMap)
    requires counts.Keys == other.Keys
    ensures SortedFiles(counts) == SortedFiles(other)
  {
  }

  /** Raising the count of line `l` by one raises the sum by one when `l` is
      among the lines summed, once. */
  lemma {:induction false} SumLinesBump(c: map<nat, nat>, d: map<nat, nat>, ls: seq<nat>, l: nat)
    requires l in c && l in d && d[l] == c[l] + 1
    requires forall k :: k in c && k != l ==> k in d && d[k] == c[k]
    requires Distinct(ls)
    requires forall i :: 0 <= i < |ls| ==> ls[i] in c && ls[i] in d
    ensures SumLines(d, ls) == SumLines(c, ls) + (if l in ls then 1 else 0)
  {
    if |ls| > 0 {
      assert l in ls[1..] ==> ls[0] != l;
      SumLinesBump(c, d, ls[1..], l);
    }
  }

  /** The incremented file's sum goes up by one. */
  lemma SumOfIncrementedFile(counts: CountMap, e: Entry)
    requires e.file in counts && e.line in counts[e.file]
    ensures var c, d := counts[e.file], Increment(counts, e)[e.file];
      SumLines(d, SortedLines(d)) == SumLines(c, SortedLines(c)) + 1
  {
    var c, d := counts[e.file], Increment(counts, e)[e.file];
    SameKeysSameLines(c, d);
    var ls := SortedLines(c);
    SortedLinesDistinct(c);
    SumLinesBump(c, d, ls, e.line);
  }

  lemma {:induction false} SumFilesBump(counts: CountMap, fs: seq<string>, e: Entry)
    requires e.file in counts && e.line in counts[e.file] && Distinct(fs)
    requires forall i :: 0 <= i < |fs| ==> fs[i] in counts
    ensures SumFiles(Increment(counts, e), fs) == SumFiles(counts, fs) + (if e.file in fs then 1 else 0)
  {
    if |fs| > 0 {
      assert e.file in fs[1..] ==> fs[0] != e.file;
      SumFilesBump(counts, fs[1..], e);
      if fs[0] == e.file {
        SumOfIncrementedFile(counts, e);
      }
    }
  }

  /** Raising one entry's count raises the total by one. */
  lemma TotalIncrement(counts: CountMap, e: Entry)
    requires e.file in counts && e.line in counts[e.file]
    ensures Total(Increment(counts, e)) == Total(counts) + 1
  {
    SameKeysSameFiles(counts, Increment(counts, e));
    SortedFilesDistinct(counts);
    SumFilesBump(counts, SortedFiles(counts), e);
  }

  /** Each tallied address that has an entry adds exactly one to the total. */
  lemma {:induction false} TotalBump(m: VaddrEntryMap, counts: CountMap, v: u64)
    requires Shape(counts, m)
    ensures Total(Bump(m, counts, v)) == Total(counts) + (if v in m then 1 else 0)
  {
    if v in m {
      var e := m[v];
      assert e.file in FilesOf(m);
      assert e.line in LinesOf(m, e.file);
      assert Bump(m, counts, v) == Increment(counts, e);
      TotalIncrement(counts, e);
    }
  }

  lemma {:induction false} SumLinesZero(c: map<nat, nat>, ls: seq<nat>)
    requires forall i :: 0 <= i < |ls| ==> ls[i] in c && c[ls[i]] == 0
    ensures SumLines(c, ls) == 0
  {
    if |ls| > 0 {
      SumLinesZero(c, ls[1..]);
    }
  }

  lemma {:induction false} SumFilesZero(counts: CountMap, fs: seq<string>)
    requires forall i :: 0 <= i < |fs| ==> fs[i] in counts
    requires forall f, l :: f in counts && l in counts[f] ==> counts[f][l] == 0
    ensures SumFiles(counts, fs) == 0
  {
    if |fs| > 0 {
      SumLinesZero(counts[fs[0]], SortedLines(counts[fs[0]]));
      SumFilesZero(counts, fs[1..]);
    }
  }

  /** Tallying adds one to the total per address that has an entry. */
  lemma {:induction false} TotalTally(m: VaddrEntryMap, counts: CountMap, vs: seq<u64>)
    requires Shape(counts, m)
    requires forall i :: 0 <= i < |vs| ==> vs[i] in m
    ensures Total(Tally(m, counts, vs)) == Total(counts) + |vs|
  {
    if |vs| > 0 {
      TotalBump(m, counts, vs[0]);
      TotalTally(m, Bump(m, counts, vs[0]), vs[1..]);
    }
  }

  /** The zeroed count map has total zero. */
  lemma {:induction false} TotalZeroed(m: VaddrEntryMap)
    ensures Total(Zeroed(m)) == 0
  {
    var z := Zeroed(m);
    SumFilesZero(z, SortedFiles(z));
  }

  /** When every address has an entry, the counts add up to the number of
      addresses. */
  lemma {:induction false} TotalOfMapped(m: VaddrEntryMap, vs: seq<u64>)
    requires forall i :: 0 <= i < |vs| ==> vs[i] in m
    ensures Total(BuildFileLineCountMap(m, vs)) == |vs|
  {
    TotalTallyFromZero(m, vs);
    BuildIsTally(m, vs);
  }

  lemma {:induction false} TotalTallyFromZero(m: VaddrEntryMap, vs: seq<u64>)
    requires forall i :: 0 <= i < |vs| ==> vs[i] in m
    ensures Total(Tally(m, Zeroed(m), vs)) == |vs|
  {
    var z := Zeroed(m);
    assert Shape(z, m);
    TotalTally(m, z, vs);
    TotalZeroed(m);
  }

  /** The counts written for a trace add up to the number of addresses that
      survive dedup and the filter. */
  lemma {:induction false} TotalIsLineHits(m: VaddrEntryMap, vs: seq<u64>)
    ensures Total(BuildFileLineCountMap(m, Survivors(m, vs))) == |Survivors(m, vs)|
  {
    TotalOfMapped(m, Survivors(m, vs));
  }

  /** The lines of a `.lcov` file report, for the trace `vs` against the map
      `m`, every line of the map with the number of maximal runs of `vs`
      that map to it. */
  ghost predicate ReportsRuns(lines: seq<string>, m: VaddrEntryMap, vs: seq<u64>)
  {
    var counts := BuildFileLineCountMap(m, Survivors(m, vs));
    && ParseLcov(lines) == Some(counts)
    && (forall v :: v in m ==> m[v].file in counts && m[v].line in counts[m[v].file])
    && (forall f, l :: f in counts && l in counts[f] ==> counts[f][l] == RunsFrom(m, vs, Entry(f, l), 0))
  }

  /** The file written from the count map of a trace reports its runs. */
  lemma {:induction false} WrittenCountsReportRuns(m: VaddrEntryMap, vs: seq<u64>)
    ensures ReportsRuns(WriteLcovFile(BuildFileLineCountMap(m, Survivors(m, vs))), m, vs)
  {
    var counts := BuildFileLineCountMap(m, Survivors(m, vs));
    var lines := WriteLcovFile(counts);
    ParseWriteLcovFile(counts);
    assert ParseLcov(lines) == Some(counts);
    CountsAreRuns(m, vs);
  }
}

=== FILE: matcher.dfy ===
/** Deciding which debug binary produced a trace: `dwarf_mismatch`,
    `collect_dwarf_mismatches` and `find_applicable_dwarf`. For a candidate,
    the trace is shifted so that its first address is the candidate's start
    address; the instruction word at each shifted address of the candidate's
    `.so` file is then compared with the word recorded for that position in
    the trace's `.insns` file. */
module Matcher {
  import opened Wrappers
  import opened Words
  import opened Paths
  import opened Io
  import opened Instructions
  import opened Addresses
  import opened DebugMap

  /** Opcode byte of a call instruction: calls are patched at load time, so
      their words are not compared. */
  const CALL_OPCODE: nat := 0x85

  /** `Dwarf`: a debug binary (`path`), its start address and its debug map.
      The loader kept alive alongside the map is not modelled. */
  datatype Dwarf = Dwarf(path: Path, startAddress: u64, vaddrEntryMap: VaddrEntryMap)

  /** `Mismatch`: the first trace position where a candidate disagrees. */
  datatype Mismatch = Mismatch(index: nat, vaddr: Vaddr, expected: Insn, actual: Insn)

  /** `Mismatch::default()`: recorded when no comparison is attempted. */
  const DEFAULT_MISMATCH: Mismatch := Mismatch(0, DEFAULT_VADDR, DEFAULT_INSN, DEFAULT_INSN)

  /** One candidate's comparison: the trace, the shift, and the two opened files. */
  datatype Comparison = Comparison(vaddrs: seq<u64>, shift: nat, so: File, soPath: Path, insns: File, insnsPath: Path)

  /** Position `i` can be compared: the shifted address fits in 64 bits and
      both files hold a whole word at the positions read. */
  predicate Readable(c: Comparison, i: nat)
    requires i < |c.vaddrs|
  {
    && c.vaddrs[i] + c.shift < U64_LIMIT
    && c.vaddrs[i] + c.shift + 8 <= |c.so|
    && 8 * i + 8 <= |c.insns|
  }

  /** The word the candidate's binary holds at the shifted address. */
  function Expected(c: Comparison, i: nat): u64
    requires i < |c.vaddrs| && Readable(c, i)
  {
    ReadU64(c.so, c.vaddrs[i] + c.shift).value
  }

  /** The word the trace recorded at position `i`. */
  function Actual(c: Comparison, i: nat): u64
    requires i < |c.vaddrs| && Readable(c, i)
  {
    ReadU64(c.insns, 8 * i).value
  }

  /** Position `i` disagrees: the expected word is not a call and differs
      from the recorded one. */
  predicate Diverges(c: Comparison, i: nat)
    requires i < |c.vaddrs|
  {
    Readable(c, i) && Expected(c, i) % 256 != CALL_OPCODE && Expected(c, i) != Actual(c, i)
  }

  /** Positions `from` up to `to` are readable and agree. */
  predicate AgreeBetween(c: Comparison, from: nat, to: nat)
    requires to <= |c.vaddrs|
  {
    forall j :: from <= j < to ==> Readable(c, j) && !Diverges(c, j)
  }

  /** A position that cannot be read ends the agreement that starts at it. */
  lemma StopsAt(c: Comparison, i: nat)
    requires i < |c.vaddrs| && !Readable(c, i)
    ensures !AgreeBetween(c, i, |c.vaddrs|)
    ensures exists j :: i <= j < |c.vaddrs| && AgreeBetween(c, i, j) && !Readable(c, j)
  {
    assert AgreeBetween(c, i, i);
  }

  /** The loop of `dwarf_mismatch` from position `i` on. Both words are read
      before the call test, so a short read fails even at a call. */
  function Scan(c: Comparison, i: nat): (r: Result<Option<Mismatch>, Error>)
    requires i <= |c.vaddrs|
    ensures r.Ok? && r.value.Some? ==> i <= r.value.value.index < |c.vaddrs|
    decreases |c.vaddrs| - i
  {
    if i == |c.vaddrs| then Ok(None)
    else
      var vaddr := c.vaddrs[i] + c.shift;
      if vaddr >= U64_LIMIT then Err(AddOverflow)
      else
        var expected :- ReadWordAt(c.so, c.soPath, vaddr);
        var actual :- ReadWordAt(c.insns, c.insnsPath, 8 * i);
        if expected % 256 == CALL_OPCODE then Scan(c, i + 1)
        else if expected != actual then Ok(Some(Mismatch(i, Vaddr(vaddr), Insn(expected), Insn(actual))))
        else Scan(c, i + 1)
  }

  /** The first disagreement at or after position `i`, with the words read there. */
  predicate FirstDivergence(c: Comparison, i: nat, m: Mismatch)
    requires i <= |c.vaddrs|
  {
    && i <= m.index < |c.vaddrs|
    && AgreeBetween(c, i, m.index)
    && Diverges(c, m.index)
    && m == Mismatch(m.index, Vaddr(c.vaddrs[m.index] + c.shift),
                     Insn(Expected(c, m.index)), Insn(Actual(c, m.index)))
  }

  /** The scan fails at a position that cannot be read. */
  lemma ScanUnreadable(c: Comparison, i: nat)
    requires i < |c.vaddrs| && !Readable(c, i)
    ensures Scan(c, i).Err?
  {
  }

  /** The scan stops at a diverging position and reports it. */
  lemma ScanDiverges(c: Comparison, i: nat)
    requires i < |c.vaddrs| && Diverges(c, i)
    ensures Scan(c, i) == Ok(Some(Mismatch(i, Vaddr(c.vaddrs[i] + c.shift), Insn(Expected(c, i)), Insn(Actual(c, i)))))
  {
  }

  /** The scan moves past a position that agrees. */
  lemma ScanAgrees(c: Comparison, i: nat)
    requires i < |c.vaddrs| && Readable(c, i) && !Diverges(c, i)
    ensures Scan(c, i) == Scan(c, i + 1)
  {
  }

  /** The scan finds nothing exactly when every remaining position is
      readable and agrees. */
  lemma {:induction false} ScanNone(c: Comparison, i: nat)
    requires i <= |c.vaddrs|
    ensures Scan(c, i) == Ok(None) <==> AgreeBetween(c, i, |c.vaddrs|)
    decreases |c.vaddrs| - i
  {
    if i < |c.vaddrs| {
      if !Readable(c, i) {
        ScanUnreadable(c, i);
      } else if Diverges(c, i) {
        ScanDiverges(c, i);
      } else {
        ScanAgrees(c, i);
        ScanNone(c, i + 1);
      }
    }
  }

  /** A reported mismatch is the first disagreement. */
  lemma {:induction false} ScanSome(c: Comparison, i: nat)
    requires i <= |c.vaddrs|
    ensures Scan(c, i).Ok? && Scan(c, i).value.Some? ==> FirstDivergence(c, i, Scan(c, i).value.value)
    decreases |c.vaddrs| - i
  {
    if i < |c.vaddrs| {
      if !Readable(c, i) {
        ScanUnreadable(c, i);
      } else if Diverges(c, i) {
        ScanDiverges(c, i);
        assert AgreeBetween(c, i, i);
      } else {
        ScanAgrees(c, i);
        ScanSome(c, i + 1);
      }
    }
  }

  /** The scan fails only at a position that cannot be read, after
      agreement up to it. */
  lemma {:induction false} ScanErr(c: Comparison, i: nat)
    requires i <= |c.vaddrs|
    ensures Scan(c, i).Err? ==> exists j :: i <= j < |c.vaddrs| && AgreeBetween(c, i, j) && !Readable(c, j)
    decreases |c.vaddrs| - i
  {
    if i < |c.vaddrs| {
      if !Readable(c, i) {
        StopsAt(c, i);
      } else if Diverges(c, i) {
        ScanDiverges(c, i);
      } else {
        ScanAgrees(c, i);
        ScanErr(c, i + 1);
        if Scan(c, i).Err? {
          var j :| i + 1 <= j < |c.vaddrs| && AgreeBetween(c, i + 1, j) && !Readable(c, j);
          assert AgreeBetween(c, i, j);
        }
      }
    }
  }

  /** Some position from `from` on cannot be read, and every position
      before it agrees. */
  predicate Stuck(c: Comparison, from: nat)
    requires from <= |c.vaddrs|
  {
    exists j :: from <= j < |c.vaddrs| && AgreeBetween(c, from, j) && !Readable(c, j)
  }

  /** The scan fails exactly when it gets stuck before any disagreement. */
  lemma ScanFails(c: Comparison, i: nat)
    requires i <= |c.vaddrs|
    ensures Scan(c, i).Err? <==> Stuck(c, i)
  {
    ScanNone(c, i);
    ScanSome(c, i);
    ScanErr(c, i);
  }

  /** A disagreement reached through agreeing positions is what the scan
      reports. */
  lemma {:induction false} ScanReaches(c: Comparison, i: nat, j: nat)
    requires i <= j < |c.vaddrs| && AgreeBetween(c, i, j) && Diverges(c, j)
    ensures Scan(c, i) == Ok(Some(Mismatch(j, Vaddr(c.vaddrs[j] + c.shift), Insn(Expected(c, j)), Insn(Actual(c, j)))))
    decreases j - i
  {
    if i == j {
      ScanDiverges(c, i);
    } else {
      ScanAgrees(c, i);
      ScanReaches(c, i + 1, j);
    }
  }

  /** The three outcomes of the scan together. */
  lemma ScanSpec(c: Comparison, i: nat)
    requires i <= |c.vaddrs|
    ensures Scan(c, i) == Ok(None) <==> AgreeBetween(c, i, |c.vaddrs|)
    ensures Scan(c, i).Ok? && Scan(c, i).value.Some? ==> FirstDivergence(c, i, Scan(c, i).value.value)
    ensures Scan(c, i).Err? ==> exists j :: i <= j < |c.vaddrs| && AgreeBetween(c, i, j) && !Readable(c, j)
  {
    ScanNone(c, i);
    ScanSome(c, i);
    ScanErr(c, i);
  }

  /** A comparison is attempted: the trace is non-empty and the candidate's
      start address is not below the trace's first address. */
  predicate Comparable(vaddrs: seq<u64>, dwarf: Dwarf)
  {
    |vaddrs| > 0 && dwarf.startAddress >= vaddrs[0]
  }

  function SoPath(dwarf: Dwarf): Path
  {
    WithExtension(dwarf.path, "so")
  }

  function InsnsPath(pcsPath: Path): Path
  {
    WithExtension(pcsPath, "insns")
  }

  /** The comparison `dwarf_mismatch` performs for a comparable candidate
      whose two files exist. */
  function ComparisonFor(vaddrs: seq<u64>, dwarf: Dwarf, pcsPath: Path, fs: FileSystem): Comparison
    requires Comparable(vaddrs, dwarf)
    requires SoPath(dwarf) in fs && InsnsPath(pcsPath) in fs
  {
    Comparison(vaddrs, dwarf.startAddress - vaddrs[0],
               fs[SoPath(dwarf)], SoPath(dwarf), fs[InsnsPath(pcsPath)], InsnsPath(pcsPath))
  }

  /** The candidate produced the trace: every position is readable and
      agrees, call words aside. */
  predicate ExactMatch(vaddrs: seq<u64>, dwarf: Dwarf, pcsPath: Path, fs: FileSystem)
  {
    && Comparable(vaddrs, dwarf)
    && SoPath(dwarf) in fs && InsnsPath(pcsPath) in fs
    && AgreeBetween(ComparisonFor(vaddrs, dwarf, pcsPath, fs), 0, |vaddrs|)
  }

  /** `dwarf_mismatch(vaddrs, dwarf, pcs_path)`: `None` for an exact match,
      the first disagreement otherwise, or an error when a file is missing, a
      read falls short, or a shifted address overflows. */
  function DwarfMismatch(vaddrs: seq<u64>, dwarf: Dwarf, pcsPath: Path, fs: FileSystem): (r: Result<Option<Mismatch>, Error>)
    ensures !Comparable(vaddrs, dwarf) ==> r == Ok(Some(DEFAULT_MISMATCH))
    ensures r == Ok(None) <==> ExactMatch(vaddrs, dwarf, pcsPath, fs)
    ensures Comparable(vaddrs, dwarf) && r.Ok? && r.value.Some? ==>
              && SoPath(dwarf) in fs && InsnsPath(pcsPath) in fs
              && var c := ComparisonFor(vaddrs, dwarf, pcsPath, fs);
                 var m := r.value.value;
                 && m.index < |vaddrs|
                 && AgreeBetween(c, 0, m.index)
                 && Diverges(c, m.index)
                 && m.vaddr.addr == vaddrs[m.index] + c.shift
    ensures Comparable(vaddrs, dwarf) && SoPath(dwarf) !in fs ==> r == Err(NotFound(SoPath(dwarf)))
    ensures Comparable(vaddrs, dwarf) && SoPath(dwarf) in fs && InsnsPath(pcsPath) !in fs ==>
              r == Err(NotFound(InsnsPath(pcsPath)))
    ensures r.Err? <==>
              && Comparable(vaddrs, dwarf)
              && (SoPath(dwarf) in fs && InsnsPath(pcsPath) in fs ==>
                    Stuck(ComparisonFor(vaddrs, dwarf, pcsPath, fs), 0))
  {
    if |vaddrs| == 0 || dwarf.startAddress < vaddrs[0] then Ok(Some(DEFAULT_MISMATCH))
    else
      var shift := dwarf.startAddress - vaddrs[0];
      var so :- Open(fs, SoPath(dwarf));
      var insns :- Open(fs, InsnsPath(pcsPath));
      var c := Comparison(vaddrs, shift, so, SoPath(dwarf), insns, InsnsPath(pcsPath));
      ScanSpec(c, 0);
      ScanFails(c, 0);
      Scan(c, 0)
  }

  /** A disagreement reached with every earlier position readable and in
      agreement is what `dwarf_mismatch` reports, never an error. */
  lemma DivergenceIsReported(vaddrs: seq<u64>, dwarf: Dwarf, pcsPath: Path, fs: FileSystem, j: nat)
    requires Comparable(vaddrs, dwarf)
    requires SoPath(dwarf) in fs && InsnsPath(pcsPath) in fs
    requires var c := ComparisonFor(vaddrs, dwarf, pcsPath, fs);
      j < |vaddrs| && AgreeBetween(c, 0, j) && Diverges(c, j)
    ensures var c := ComparisonFor(vaddrs, dwarf, pcsPath, fs);
      DwarfMismatch(vaddrs, dwarf, pcsPath, fs) ==
        Ok(Some(Mismatch(j, Vaddr(vaddrs[j] + c.shift), Insn(Expected(c, j)), Insn(Actual(c, j)))))
  {
    var c := ComparisonFor(vaddrs, dwarf, pcsPath, fs);
    ScanReaches(c, 0, j);
  }

  /** A candidate whose words differ from the trace only where the expected
      word is a call is an exact match. */
  lemma CallSkipTolerance(vaddrs: seq<u64>, dwarf: Dwarf, pcsPath: Path, fs: FileSystem)
    requires Comparable(vaddrs, dwarf)
    requires SoPath(dwarf) in fs && InsnsPath(pcsPath) in fs
    requires var c := ComparisonFor(vaddrs, dwarf, pcsPath, fs);
      forall j :: 0 <= j < |vaddrs| ==>
        Readable(c, j) && (Expected(c, j) != Actual(c, j) ==> Expected(c, j) % 256 == CALL_OPCODE)
    ensures DwarfMismatch(vaddrs, dwarf, pcsPath, fs) == Ok(None)
  {
  }

  /** `collect_dwarf_mismatches`: every candidate's result, in order; the
      first candidate whose comparison fails aborts the collection. */
  function CollectDwarfMismatches(dwarfs: seq<Dwarf>, pcsPath: Path, vaddrs: seq<u64>, fs: FileSystem)
    : (r: Result<seq<Option<Mismatch>>, Error>)
    ensures r.Ok? <==> forall i :: 0 <= i < |dwarfs| ==> DwarfMismatch(vaddrs, dwarfs[i], pcsPath, fs).Ok?
    ensures r.Ok? ==> |r.value| == |dwarfs|
    ensures r.Ok? ==> forall i :: 0 <= i < |dwarfs| ==> r.value[i] == DwarfMismatch(vaddrs, dwarfs[i], pcsPath, fs).value
    ensures r.Err? ==> exists i :: 0 <= i < |dwarfs| && DwarfMismatch(vaddrs, dwarfs[i], pcsPath, fs) == Err(r.error)
                                   && forall j :: 0 <= j < i ==> DwarfMismatch(vaddrs, dwarfs[j], pcsPath, fs).Ok?
  {
    CollectResults(dwarfs, d => DwarfMismatch(vaddrs, d, pcsPath, fs))
  }

  /** The first exact match in candidate order (`iter().find(..)`). */
  function FirstExact(ms: seq<Option<Mismatch>>): (r: Option<nat>)
    ensures r.Some? ==> r.value < |ms| && ms[r.value].None? && forall j :: 0 <= j < r.value ==> ms[j].Some?
    ensures r.None? ==> forall j :: 0 <= j < |ms| ==> ms[j].Some?
  {
    if |ms| == 0 then None
    else if ms[0].None? then Some(0)
    else match FirstExact(ms[1..])
      case None => None
      case Some(k) => Some(k + 1)
  }

  predicate AllMismatched(ms: seq<Option<Mismatch>>)
  {
    forall j :: 0 <= j < |ms| ==> ms[j].Some?
  }

  /** `best` has the largest index among the first `i` results, and no later
      one among them is as large. */
  predicate LastMaxUpTo(ms: seq<Option<Mismatch>>, best: nat, i: nat)
    requires AllMismatched(ms) && best < i <= |ms|
  {
    && (forall j :: 0 <= j < i ==> ms[j].value.index <= ms[best].value.index)
    && (forall j :: best < j < i ==> ms[j].value.index < ms[best].value.index)
  }

  /** The fold of `max_by_key` from position `i` on: a later result with an
      equal key replaces the current best. */
  function MaxByIndexFrom(ms: seq<Option<Mismatch>>, best: nat, i: nat): (k: nat)
    requires AllMismatched(ms) && best < i <= |ms|
    requires LastMaxUpTo(ms, best, i)
    ensures k < |ms| && LastMaxUpTo(ms, k, |ms|)
    decreases |ms| - i
  {
    if i == |ms| then best
    else if ms[i].value.index >= ms[best].value.index then MaxByIndexFrom(ms, i, i + 1)
    else MaxByIndexFrom(ms, best, i + 1)
  }

  /** `max_by_key(|m| m.index)`: the last candidate with the largest index. */
  function MaxByIndex(ms: seq<Option<Mismatch>>): (k: nat)
    requires |ms| > 0 && AllMismatched(ms)
    ensures k < |ms|
    ensures forall j :: 0 <= j < |ms| ==> ms[j].value.index <= ms[k].value.index
    ensures forall j :: k < j < |ms| ==> ms[j].value.index < ms[k].value.index
  {
    MaxByIndexFrom(ms, 0, 1)
  }

  /** Adds the shift to every address (`*vaddr += shift`). */
  function ApplyShift(vaddrs: seq<u64>, shift: nat): (r: seq<u64>)
    requires forall j :: 0 <= j < |vaddrs| ==> vaddrs[j] + shift < U64_LIMIT
    ensures |r| == |vaddrs|
    ensures forall j :: 0 <= j < |vaddrs| ==> r[j] == vaddrs[j] + shift
  {
    seq(|vaddrs|, j requires 0 <= j < |vaddrs| => vaddrs[j] + shift)
  }

  /** An exact match reads every shifted address, so none of them overflows. */
  lemma ExactMatchShiftFits(vaddrs: seq<u64>, dwarf: Dwarf, pcsPath: Path, fs: FileSystem)
    requires ExactMatch(vaddrs, dwarf, pcsPath, fs)
    ensures |vaddrs| > 0 && dwarf.startAddress >= vaddrs[0]
    ensures forall j :: 0 <= j < |vaddrs| ==> vaddrs[j] + (dwarf.startAddress - vaddrs[0]) < U64_LIMIT
  {
    var c := ComparisonFor(vaddrs, dwarf, pcsPath, fs);
    forall j | 0 <= j < |vaddrs|
      ensures vaddrs[j] + (dwarf.startAddress - vaddrs[0]) < U64_LIMIT
    {
      assert Readable(c, j);
    }
  }

  /** A candidate's result is a mismatch at or before position `bound`. */
  predicate MismatchAtMost(r: Result<Option<Mismatch>, Error>, bound: nat)
  {
    r.Ok? && r.value.Some? && r.value.value.index <= bound
  }

  /** A candidate's result is a mismatch strictly before position `bound`. */
  predicate MismatchBelow(r: Result<Option<Mismatch>, Error>, bound: nat)
  {
    r.Ok? && r.value.Some? && r.value.value.index < bound
  }

  /** What `find_applicable_dwarf` returns: the chosen candidate, the
      mismatch when it is only the closest match, and the trace afterwards. */
  datatype Selection = Selection(dwarf: nat, mismatch: Option<Mismatch>, vaddrs: seq<u64>)

  /** `find_applicable_dwarf(dwarfs, pcs_path, vaddrs)`. The source's
      `vaddrs.first().unwrap()`, its `assert!(start_address >= vaddr_first)`
      and its `*vaddr += shift` cannot panic: an exact match implies a
      non-empty trace, a start address not below its first address, and
      shifted addresses that already fit in 64 bits when compared. */
  function FindApplicableDwarf(dwarfs: seq<Dwarf>, pcsPath: Path, vaddrs: seq<u64>, fs: FileSystem): (r: Result<Selection, Error>)
    requires |dwarfs| > 0
    ensures r.Ok? <==> CollectDwarfMismatches(dwarfs, pcsPath, vaddrs, fs).Ok?
    ensures r.Err? ==> r.error == CollectDwarfMismatches(dwarfs, pcsPath, vaddrs, fs).error
    ensures r.Ok? ==> r.value.dwarf < |dwarfs|
    ensures r.Ok? && r.value.mismatch.None? ==>
              var k := r.value.dwarf;
              && ExactMatch(vaddrs, dwarfs[k], pcsPath, fs)
              && (forall j :: 0 <= j < k ==> !ExactMatch(vaddrs, dwarfs[j], pcsPath, fs))
              && |r.value.vaddrs| == |vaddrs|
              && forall j :: 0 <= j < |vaddrs| ==>
                   r.value.vaddrs[j] == vaddrs[j] + (dwarfs[k].startAddress - vaddrs[0])
    ensures r.Ok? && r.value.mismatch.Some? ==>
              var k := r.value.dwarf;
              && r.value.vaddrs == vaddrs
              && (forall j :: 0 <= j < |dwarfs| ==> !ExactMatch(vaddrs, dwarfs[j], pcsPath, fs))
              && DwarfMismatch(vaddrs, dwarfs[k], pcsPath, fs) == Ok(r.value.mismatch)
              && (forall j :: 0 <= j < |dwarfs| ==>
                    MismatchAtMost(DwarfMismatch(vaddrs, dwarfs[j], pcsPath, fs), r.value.mismatch.value.index))
              && (forall j :: k < j < |dwarfs| ==>
                    MismatchBelow(DwarfMismatch(vaddrs, dwarfs[j], pcsPath, fs), r.value.mismatch.value.index))
  {
    var ms :- CollectDwarfMismatches(dwarfs, pcsPath, vaddrs, fs);
    match FirstExact(ms)
    case Some(k) =>
      ExactCandidate(dwarfs, pcsPath, vaddrs, fs, ms, k);
      var shift := dwarfs[k].startAddress - vaddrs[0];
      ExactMatchShiftFits(vaddrs, dwarfs[k], pcsPath, fs);
      Ok(Selection(k, None, ApplyShift(vaddrs, shift)))
    case None =>
      ClosestCandidate(dwarfs, pcsPath, vaddrs, fs, ms);
      var k := MaxByIndex(ms);
      Ok(Selection(k, ms[k], vaddrs))
  }

  /** The first exact result among the collected ones is the first
      candidate that matches exactly. */
  lemma ExactCandidate(dwarfs: seq<Dwarf>, pcsPath: Path, vaddrs: seq<u64>, fs: FileSystem,
                       ms: seq<Option<Mismatch>>, k: nat)
    requires CollectDwarfMismatches(dwarfs, pcsPath, vaddrs, fs) == Ok(ms)
    requires FirstExact(ms) == Some(k)
    ensures k < |dwarfs| && ExactMatch(vaddrs, dwarfs[k], pcsPath, fs)
    ensures forall j :: 0 <= j < k ==> !ExactMatch(vaddrs, dwarfs[j], pcsPath, fs)
  {
    assert DwarfMismatch(vaddrs, dwarfs[k], pcsPath, fs) == Ok(None);
    forall j | 0 <= j < k
      ensures !ExactMatch(vaddrs, dwarfs[j], pcsPath, fs)
    {
      assert ms[j].Some?;
    }
  }

  /** Without an exact result every candidate recorded a mismatch, and the
      last one with the largest index is the closest. */
  lemma ClosestCandidate(dwarfs: seq<Dwarf>, pcsPath: Path, vaddrs: seq<u64>, fs: FileSystem,
                         ms: seq<Option<Mismatch>>)
    requires |dwarfs| > 0
    requires CollectDwarfMismatches(dwarfs, pcsPath, vaddrs, fs) == Ok(ms)
    requires FirstExact(ms).None?
    ensures |ms| == |dwarfs| && AllMismatched(ms)
    ensures forall j :: 0 <= j < |dwarfs| ==> !ExactMatch(vaddrs, dwarfs[j], pcsPath, fs)
    ensures var k := MaxByIndex(ms);
      && DwarfMismatch(vaddrs, dwarfs[k], pcsPath, fs) == Ok(ms[k])
      && (forall j :: 0 <= j < |dwarfs| ==> MismatchAtMost(DwarfMismatch(vaddrs, dwarfs[j], pcsPath, fs), ms[k].value.index))
      && (forall j :: k < j < |dwarfs| ==> MismatchBelow(DwarfMismatch(vaddrs, dwarfs[j], pcsPath, fs), ms[k].value.index))
  {
    var k := MaxByIndex(ms);
    forall j | 0 <= j < |dwarfs|
      ensures DwarfMismatch(vaddrs, dwarfs[j], pcsPath, fs) == Ok(ms[j])
    {
    }
  }

  /** After an exact match the first address of the trace is the chosen
      candidate's start address (the source's `assert!` in
      `process_pcs_path`). */
  lemma ShiftAlignsFirstAddress(dwarfs: seq<Dwarf>, pcsPath: Path, vaddrs: seq<u64>, fs: FileSystem)
    requires |dwarfs| > 0
    requires var r := FindApplicableDwarf(dwarfs, pcsPath, vaddrs, fs); r.Ok? && r.value.mismatch.None?
    ensures var s := FindApplicableDwarf(dwarfs, pcsPath, vaddrs, fs).value;
      |s.vaddrs| > 0 && s.vaddrs[0] == dwarfs[s.dwarf].startAddress
  {
  }

  /** An empty trace matches no candidate; every candidate records the
      default mismatch and, the keys tying, the last candidate is chosen. */
  lemma EmptyTraceSelectsLastCandidate(dwarfs: seq<Dwarf>, pcsPath: Path, fs: FileSystem)
    requires |dwarfs| > 0
    ensures FindApplicableDwarf(dwarfs, pcsPath, [], fs) == Ok(Selection(|dwarfs| - 1, Some(DEFAULT_MISMATCH), []))
  {
    var ms := CollectDwarfMismatches(dwarfs, pcsPath, [], fs).value;
    assert forall j :: 0 <= j < |ms| ==> ms[j] == Some(DEFAULT_MISMATCH);
    assert FirstExact(ms).None?;
    var k := MaxByIndex(ms);
    assert ms[|ms| - 1].value.index == ms[k].value.index;
  }
}

=== FILE: orders.dfy ===
/** Strict total orders and the ascending enumeration of a finite set.
    Rust's `BTreeMap` iterates its keys in ascending `Ord` order; the model
    obtains that order by enumerating the key set of a Dafny `map`. */
module Orders {

  ghost predicate StrictTotal<T(!new)>(lt: (T, T) -> bool)
  {
    && (forall a :: !lt(a, a))
    && (forall a, b, c :: lt(a, b) && lt(b, c) ==> lt(a, c))
    && (forall a, b :: a != b ==> lt(a, b) || lt(b, a))
  }

  ghost predicate StrictlySorted<T>(s: seq<T>, lt: (T, T) -> bool)
  {
    forall i, j :: 0 <= i < j < |s| ==> lt(s[i], s[j])
  }

  ghost predicate IsLeast<T>(m: T, s: set<T>, lt: (T, T) -> bool)
  {
    m in s && forall y :: y in s && y != m ==> lt(m, y)
  }

  lemma {:induction false} LeastExists<T(!new)>(s: set<T>, lt: (T, T) -> bool)
    requires StrictTotal(lt)
    requires s != {}
    ensures exists m :: IsLeast(m, s, lt)
    decreases |s|
  {
    var x :| x in s;
    if s != {x} {
      LeastExists(s - {x}, lt);
      var m :| IsLeast(m, s - {x}, lt);
      if lt(x, m) {
        forall y | y in s && y != x
          ensures lt(x, y)
        {
          if y != m {
            assert lt(m, y);
          }
        }
        assert IsLeast(x, s, lt);
      } else {
        assert IsLeast(m, s, lt);
      }
    } else {
      assert IsLeast(x, s, lt);
    }
  }

  /** The elements of `s` in ascending order. */
  ghost function Enumerate<T(!new)>(s: set<T>, lt: (T, T) -> bool): (r: seq<T>)
    requires StrictTotal(lt)
    ensures StrictlySorted(r, lt)
    ensures forall x :: x in r <==> x in s
    ensures |r| == |s|
    decreases |s|
  {
    if s == {} then []
    else
      LeastExists(s, lt);
      var m :| IsLeast(m, s, lt);
      [m] + Enumerate(s - {m}, lt)
  }

  /** A strictly sorted sequence has no repeated element. */
  lemma SortedDistinct<T(!new)>(s: seq<T>, lt: (T, T) -> bool, i: int, j: int)
    requires StrictTotal(lt)
    requires StrictlySorted(s, lt)
    requires 0 <= i < |s| && 0 <= j < |s| && i != j
    ensures s[i] != s[j]
  {
  }

  /** The natural order on line numbers and addresses. */
  predicate NatLt(a: nat, b: nat)
  {
    a < b
  }

  lemma NatLtStrictTotal()
    ensures StrictTotal(NatLt)
  {
  }

  /** Lexicographic order on strings: the order of Rust's `Ord for str`
      (byte-wise order of UTF-8 coincides with code-point order). */
  predicate StrLt(a: string, b: string)
  {
    if |a| == 0 then |b| > 0
    else if |b| == 0 then false
    else if a[0] == b[0] then StrLt(a[1..], b[1..])
    else a[0] < b[0]
  }

  lemma {:induction false} StrLtIrreflexive(a: string)
    ensures !StrLt(a, a)
  {
    if |a| > 0 {
      StrLtIrreflexive(a[1..]);
    }
  }

  lemma {:induction false} StrLtTransitive(a: string, b: string, c: string)
    requires StrLt(a, b) && StrLt(b, c)
    ensures StrLt(a, c)
  {
    if |a| > 0 && |b| > 0 && |c| > 0 && a[0] == b[0] && b[0] == c[0] {
      StrLtTransitive(a[1..], b[1..], c[1..]);
    }
  }

  lemma {:induction false} StrLtTotal(a: string, b: string)
    requires a != b
    ensures StrLt(a, b) || StrLt(b, a)
  {
    if |a| > 0 && |b| > 0 && a[0] == b[0] {
      assert a == [a[0]] + a[1..] && b == [b[0]] + b[1..];
      StrLtTotal(a[1..], b[1..]);
    }
  }

  lemma {:induction false} StrLtStrictTotal()
    ensures StrictTotal(StrLt)
  {
    forall a: string
      ensures !StrLt(a, a)
    {
      StrLtIrreflexive(a);
    }
    forall a: string, b: string, c: string | StrLt(a, b) && StrLt(b, c)
      ensures StrLt(a, c)
    {
      StrLtTransitive(a, b, c);
    }
    forall a: string, b: string | a != b
      ensures StrLt(a, b) || StrLt(b, a)
    {
      StrLtTotal(a, b);
    }
  }
}

=== FILE: paths.dfy ===
/** File-system paths as sequences of components, with the parts of Rust's
    `std::path` the program uses: `extension`, `with_extension`, `join` and
    component-wise `strip_prefix`. */
module Paths {
  import opened Wrappers

  type Path = seq<string>

  /** `Path::file_name`: the last component, unless it is `..` (or missing). */
  function FileName(p: Path): Option<string>
  {
    if |p| == 0 || p[|p| - 1] == "" || p[|p| - 1] == ".." then None else Some(p[|p| - 1])
  }

  /** Position of the last `c` in `s` (`rfind`). */
  function LastIndexOf(s: string, c: char): (r: Option<nat>)
    ensures r.Some? ==> r.value < |s| && s[r.value] == c
    ensures r.Some? ==> forall j :: r.value < j < |s| ==> s[j] != c
    ensures r.None? ==> forall j :: 0 <= j < |s| ==> s[j] != c
  {
    if |s| == 0 then None
    else if s[|s| - 1] == c then Some(|s| - 1)
    else LastIndexOf(s[..|s| - 1], c)
  }

  /** The contract of `LastIndexOf` determines its result. */
  lemma LastIndexOfIs(s: string, c: char, i: nat)
    requires i < |s| && s[i] == c
    requires forall j :: i < j < |s| ==> s[j] != c
    ensures LastIndexOf(s, c) == Some(i)
  {
  }

  /** Splits a file name at its last dot into stem and extension. A name with
      no dot, or whose only dot is its first character (`.bashrc`), has no
      extension. */
  function SplitExtension(name: string): (string, Option<string>)
  {
    match LastIndexOf(name, '.')
    case None => (name, None)
    case Some(i) => if i == 0 then (name, None) else (name[..i], Some(name[i + 1..]))
  }

  /** `Path::extension`. */
  function Extension(p: Path): Option<string>
  {
    match FileName(p)
    case None => None
    case Some(name) => SplitExtension(name).1
  }

  /** `Path::with_extension`: the stem kept, the extension replaced (or
      removed, for an empty `ext`); a path without a file name is unchanged. */
  function WithExtension(p: Path, ext: string): Path
  {
    match FileName(p)
    case None => p
    case Some(name) => p[..|p| - 1] + [SplitExtension(name).0 + (if ext == "" then "" else "." + ext)]
  }

  /** Replacing the extension by a non-empty one without dots yields a path in
      the same directory, with the same stem and exactly that extension. */
  lemma WithExtensionSetsExtension(p: Path, ext: string)
    requires FileName(p).Some?
    requires ext != "" && '.' !in ext
    ensures |WithExtension(p, ext)| == |p|
    ensures WithExtension(p, ext)[..|p| - 1] == p[..|p| - 1]
    ensures Extension(WithExtension(p, ext)) == Some(ext)
    ensures SplitExtension(WithExtension(p, ext)[|p| - 1]).0 == SplitExtension(p[|p| - 1]).0
  {
    var stem := SplitExtension(p[|p| - 1]).0;
    var name := stem + "." + ext;
    assert |stem| > 0;
    forall j | |stem| < j < |name|
      ensures name[j] != '.'
    {
      assert name[j] == ext[j - |stem| - 1];
    }
    LastIndexOfIs(name, '.', |stem|);
    assert name[..|stem|] == stem && name[|stem| + 1..] == ext;
    assert name[|name| - 1] == ext[|ext| - 1];
    assert name != ".." && name != "";
    assert WithExtension(p, ext)[|p| - 1] == name;
  }

  /** `Path::strip_prefix`: the remaining components when `base` is a
      component-wise prefix of `p`. */
  function StripPrefix(p: Path, base: Path): (r: Option<Path>)
    ensures r.Some? <==> |base| <= |p| && p[..|base|] == base
    ensures r.Some? ==> base + r.value == p
  {
    if |base| <= |p| && p[..|base|] == base then
      assert base + p[|base|..] == p;
      Some(p[|base|..])
    else None
  }
}

=== FILE: seqs.dfy ===
/** Sequence helpers shared by the model: filtering and subsequences. */
module Seqs {

  /** `s` with every element that fails `keep` removed, order preserved
      (Rust's `iter().filter(..).collect()`). */
  function Filter<T>(s: seq<T>, keep: T -> bool): (r: seq<T>)
    ensures |r| <= |s|
    ensures forall i :: 0 <= i < |r| ==> r[i] in s && keep(r[i])
    ensures forall i :: 0 <= i < |s| && keep(s[i]) ==> s[i] in r
  {
    if |s| == 0 then []
    else if keep(s[0]) then [s[0]] + Filter(s[1..], keep)
    else Filter(s[1..], keep)
  }

  /** `sub` can be obtained from `s` by deleting elements. */
  predicate IsSubsequence<T(==)>(sub: seq<T>, s: seq<T>)
  {
    if |sub| == 0 then true
    else if |s| == 0 then false
    else if sub[0] == s[0] then IsSubsequence(sub[1..], s[1..])
    else IsSubsequence(sub, s[1..])
  }

  /** Filtering keeps the surviving elements in their original order. */
  lemma {:induction false} FilterIsSubsequence<T>(s: seq<T>, keep: T -> bool)
    ensures IsSubsequence(Filter(s, keep), s)
  {
    if |s| > 0 {
      FilterIsSubsequence(s[1..], keep);
    }
  }

  /** Dropping the first element of a subsequence keeps it a subsequence. */
  lemma {:induction false} SubsequenceTail<T>(sub: seq<T>, s: seq<T>)
    requires |sub| > 0 && IsSubsequence(sub, s)
    ensures IsSubsequence(sub[1..], s)
    decreases |s|, 0
  {
    if sub[0] == s[0] {
      SubsequenceCons(sub[1..], s[1..], s[0]);
      assert s == [s[0]] + s[1..];
    } else {
      SubsequenceTail(sub, s[1..]);
      SubsequenceCons(sub[1..], s[1..], s[0]);
      assert s == [s[0]] + s[1..];
    }
  }

  /** A subsequence of `s` is a subsequence of any extension of `s` at the front. */
  lemma {:induction false} SubsequenceCons<T>(sub: seq<T>, s: seq<T>, x: T)
    requires IsSubsequence(sub, s)
    ensures IsSubsequence(sub, [x] + s)
    decreases |s|, 1
  {
    assert ([x] + s)[1..] == s;
    if |sub| > 0 && sub[0] == x {
      SubsequenceTail(sub, s);
    }
  }

  /** Number of occurrences of `x` in `s`. */
  function Count<T(==)>(s: seq<T>, x: T): (n: nat)
    ensures n <= |s|
    ensures n > 0 <==> x in s
  {
    if |s| == 0 then 0
    else (if s[0] == x then 1 else 0) + Count(s[1..], x)
  }

  lemma {:induction false} CountAppend<T>(a: seq<T>, b: seq<T>, x: T)
    ensures Count(a + b, x) == Count(a, x) + Count(b, x)
  {
    if |a| > 0 {
      assert (a + b)[0] == a[0];
      assert (a + b)[1..] == a[1..] + b;
      CountAppend(a[1..], b, x);
    } else {
      assert a + b == b;
    }
  }
}

=== FILE: start_address.dfy ===
/** `start_address`: the entry address of an ELF file, found in the text that
    `objdump -f` prints. Running objdump is not modelled: its standard output
    (or its failure) is an input. */
module StartAddress {
  import opened Wrappers
  import opened Words
  import opened Hex
  import opened Paths
  import opened Io

  const PREFIX: string := "start address"

  /** Position of the first `c` in `s`. */
  function IndexOf(s: string, c: char): (r: Option<nat>)
    ensures r.Some? ==> r.value < |s| && s[r.value] == c
    ensures r.Some? ==> forall j :: 0 <= j < r.value ==> s[j] != c
    ensures r.None? ==> forall j :: 0 <= j < |s| ==> s[j] != c
  {
    if |s| == 0 then None
    else if s[0] == c then Some(0)
    else match IndexOf(s[1..], c)
      case None => None
      case Some(i) => Some(i + 1)
  }

  /** Drops one `\r` at the end of a line. */
  function StripCr(line: string): string
  {
    if |line| > 0 && line[|line| - 1] == '\r' then line[..|line| - 1] else line
  }

  /** Rust's `str::lines`: pieces separated by `\n`, each stripped of a `\r`
      that precedes its `\n`; a final `\n` does not start an empty line. */
  function Lines(s: string): (r: seq<string>)
    ensures forall i :: 0 <= i < |r| ==> '\n' !in r[i]
    decreases |s|
  {
    if |s| == 0 then []
    else match IndexOf(s, '\n')
      case None => [s]
      case Some(i) => [StripCr(s[..i])] + Lines(s[i + 1..])
  }

  lemma LinesCons(first: string, rest: string)
    requires '\n' !in first
    ensures Lines(first + "\n" + rest) == [StripCr(first)] + Lines(rest)
  {
    var s := first + "\n" + rest;
    assert s[|first|] == '\n';
    assert IndexOf(s, '\n') == Some(|first|);
    assert s[..|first|] == first && s[|first| + 1..] == rest;
  }

  predicate HexMarkerAt(line: string, q: nat)
    requires q + 1 < |line|
  {
    line[q] == '0' && line[q + 1] == 'x'
  }

  /** `line.rfind("0x")`: the position of the last `0x`. */
  function RFindHexMarker(line: string): (r: Option<nat>)
    ensures r.Some? ==> r.value + 1 < |line| && HexMarkerAt(line, r.value)
    ensures r.Some? ==> forall q :: r.value < q && q + 1 < |line| ==> !HexMarkerAt(line, q)
    ensures r.None? ==> forall q :: 0 <= q && q + 1 < |line| ==> !HexMarkerAt(line, q)
  {
    if |line| < 2 then None
    else if HexMarkerAt(line, |line| - 2) then Some(|line| - 2)
    else
      var r := RFindHexMarker(line[..|line| - 1]);
      assert forall q :: 0 <= q && q + 2 < |line| ==> (HexMarkerAt(line, q) <==> HexMarkerAt(line[..|line| - 1], q));
      r
  }

  /** The address a single line of objdump output yields, if any: the line
      must begin with `start address` (a colon may or may not follow), and the
      text after its last `0x` must parse as a 64-bit hex number. */
  function LineAddress(line: string): Option<u64>
  {
    if !(PREFIX <= line) then None
    else match RFindHexMarker(line)
      case None => None
      case Some(p) => ParseU64Radix16(line[p + 2..])
  }

  /** The first line that yields an address; later lines are ignored. */
  function FirstAddress(lines: seq<string>): (r: Option<u64>)
    ensures r.None? <==> forall i :: 0 <= i < |lines| ==> LineAddress(lines[i]).None?
    ensures r.Some? ==> exists i :: (0 <= i < |lines| && LineAddress(lines[i]) == r
                                     && forall j :: 0 <= j < i ==> LineAddress(lines[j]).None?)
  {
    if |lines| == 0 then None
    else if LineAddress(lines[0]).Some? then
      LineAddress(lines[0])
    else
      var r := FirstAddress(lines[1..]);
      assert forall i :: 1 <= i < |lines| ==> lines[i] == lines[1..][i - 1];
      if r.Some? then
        var i :| 0 <= i < |lines[1..]| && LineAddress(lines[1..][i]) == r
          && forall j :: 0 <= j < i ==> LineAddress(lines[1..][j]).None?;
        assert LineAddress(lines[i + 1]) == r;
        r
      else r
  }

  /** `start_address(path)`, given objdump's standard output (or the failure
      to run it, to have it succeed, or to decode its output as UTF-8). */
  function StartAddressOf(path: Path, stdout: Result<string, Error>): (r: Result<u64, Error>)
    ensures stdout.Err? ==> r == Err(stdout.error)
    ensures stdout.Ok? && r.Err? ==>
              && r.error == NoStartAddress(path)
              && forall i :: 0 <= i < |Lines(stdout.value)| ==> LineAddress(Lines(stdout.value)[i]).None?
    ensures r.Ok? ==>
              exists i :: (&& 0 <= i < |Lines(stdout.value)|
                           && LineAddress(Lines(stdout.value)[i]) == Some(r.value)
                           && forall j :: 0 <= j < i ==> LineAddress(Lines(stdout.value)[j]).None?)
  {
    var out :- stdout;
    match FirstAddress(Lines(out))
    case None => Err(NoStartAddress(path))
    case Some(a) => Ok(a)
  }

  /** A line whose text before `rest` has no `0` finds its last `0x` inside
      `rest`. */
  lemma RFindAfterPlainText(head: string, rest: string)
    requires '0' !in head
    ensures RFindHexMarker(head + rest) ==
      match RFindHexMarker(rest)
      case None => None
      case Some(p) => Some(|head| + p)
  {
    var line := head + rest;
    forall q | 0 <= q < |head| && q + 1 < |line|
      ensures !HexMarkerAt(line, q)
    {
      assert line[q] == head[q];
    }
    forall q | |head| <= q && q + 1 < |line|
      ensures HexMarkerAt(line, q) <==> HexMarkerAt(rest, q - |head|)
    {
    }
    match RFindHexMarker(rest)
    case None => {
      RFindNone(line);
    }
    case Some(p) => {
      assert HexMarkerAt(line, |head| + p);
      RFindIs(line, |head| + p);
    }
  }

  /** The contract of `RFindHexMarker` determines its result. */
  lemma RFindIs(line: string, p: nat)
    requires p + 1 < |line| && HexMarkerAt(line, p)
    requires forall q :: p < q && q + 1 < |line| ==> !HexMarkerAt(line, q)
    ensures RFindHexMarker(line) == Some(p)
  {
  }

  lemma RFindNone(line: string)
    requires forall q :: 0 <= q && q + 1 < |line| ==> !HexMarkerAt(line, q)
    ensures RFindHexMarker(line) == None
  {
  }

  /** What the text after `start address` yields. */
  function TailAddress(rest: string): Option<u64>
  {
    match RFindHexMarker(rest)
    case None => None
    case Some(p) => ParseU64Radix16(rest[p + 2..])
  }

  lemma LineAddressAfterHead(head: string, rest: string)
    requires PREFIX <= head && '0' !in head
    ensures LineAddress(head + rest) == TailAddress(rest)
  {
    RFindAfterPlainText(head, rest);
    assert PREFIX <= head + rest;
    match RFindHexMarker(rest)
    case None => {}
    case Some(p) => {
      assert (head + rest)[|head| + p + 2..] == rest[p + 2..];
    }
  }

  /** GNU objdump prints `start address 0x…`, LLVM objdump `start address:
      0x…`; both give the same address. */
  lemma ColonIsOptional(rest: string)
    ensures LineAddress(PREFIX + ":" + rest) == LineAddress(PREFIX + rest)
  {
    assert '0' !in PREFIX;
    assert '0' !in PREFIX + ":";
    assert PREFIX <= PREFIX + ":";
    LineAddressAfterHead(PREFIX + ":", rest);
    LineAddressAfterHead(PREFIX, rest);
  }

  /** A line that does not begin with `start address` yields nothing, even if
      it holds a hex number. */
  lemma OtherLinesIgnored(line: string)
    requires !(PREFIX <= line)
    ensures LineAddress(line) == None
  {
  }
}

=== FILE: trace.dfy ===
/** `read_vaddrs`: decoding a `.pcs` trace file. The file is a sequence of
    little-endian 64-bit program counters, each a word index; shifting left
    by three turns it into a byte address. */
module Trace {
  import opened Wrappers
  import opened Words
  import opened Paths
  import opened Io

  /** The loop of `read_vaddrs` over the file's bytes: it stops at the first
      read that cannot fill eight bytes, so a trailing partial word is
      ignored. */
  function DecodeVaddrs(bytes: seq<byte>): (r: seq<u64>)
    ensures |r| == |bytes| / 8
    decreases |bytes|
  {
    if |bytes| < 8 then []
    else [Shl3(ReadU64(bytes, 0).value)] + DecodeVaddrs(bytes[8..])
  }

  /** Address `i` of the trace is the word at byte offset `8 * i`, shifted:
      a multiple of eight. */
  lemma {:induction false} DecodeVaddrsWords(bytes: seq<byte>)
    ensures forall i :: 0 <= i < |bytes| / 8 ==>
      8 * i + 8 <= |bytes| && DecodeVaddrs(bytes)[i] == Shl3(ReadU64(bytes, 8 * i).value)
    ensures forall i :: 0 <= i < |bytes| / 8 ==> DecodeVaddrs(bytes)[i] % 8 == 0
    decreases |bytes|
  {
    if |bytes| >= 8 {
      var r, rest := DecodeVaddrs(bytes), DecodeVaddrs(bytes[8..]);
      DecodeVaddrsWords(bytes[8..]);
      forall i | 0 <= i < |bytes| / 8
        ensures 8 * i + 8 <= |bytes| && r[i] == Shl3(ReadU64(bytes, 8 * i).value)
      {
        if i > 0 {
          ReadU64Later(bytes, 8 * (i - 1));
          assert r[i] == rest[i - 1];
        }
      }
    }
  }

  /** Reading past the first word is reading the rest. */
  lemma ReadU64Later(bytes: seq<byte>, k: nat)
    requires |bytes| >= 8
    ensures ReadU64(bytes[8..], k) == ReadU64(bytes, k + 8)
  {
    if k + 16 <= |bytes| {
      assert bytes[8..][k..k + 8] == bytes[k + 8..k + 16];
    }
  }

  /** `read_vaddrs(pcs_path)`: only opening the file can fail. */
  function ReadVaddrs(fs: FileSystem, pcsPath: Path): (r: Result<seq<u64>, Error>)
    ensures r.Ok? <==> pcsPath in fs
    ensures r.Ok? ==> r.value == DecodeVaddrs(fs[pcsPath])
    ensures r.Err? ==> r.error == NotFound(pcsPath)
  {
    var bytes :- Open(fs, pcsPath);
    Ok(DecodeVaddrs(bytes))
  }

  /** How a trace file is written: each program counter as eight
      little-endian bytes. */
  function EncodePcs(pcs: seq<u64>): (bytes: seq<byte>)
    ensures |bytes| == 8 * |pcs|
  {
    if |pcs| == 0 then [] else LeBytes(pcs[0], 8) + EncodePcs(pcs[1..])
  }

  /** Decoding a written trace gives back every program counter shifted into
      a byte address, whatever partial word trails it. */
  lemma {:induction false} DecodeEncodedPcs(pcs: seq<u64>, tail: seq<byte>)
    requires |tail| < 8
    ensures |DecodeVaddrs(EncodePcs(pcs) + tail)| == |pcs|
    ensures forall i :: 0 <= i < |pcs| ==> DecodeVaddrs(EncodePcs(pcs) + tail)[i] == Shl3(pcs[i])
  {
    if |pcs| == 0 {
      assert EncodePcs(pcs) + tail == tail;
    } else {
      var rest := EncodePcs(pcs[1..]) + tail;
      assert EncodePcs(pcs) + tail == LeBytes(pcs[0], 8) + rest;
      DecodeEncodedPcs(pcs[1..], tail);
      DecodeFirstWord(pcs[0], rest);
      var d := DecodeVaddrs(EncodePcs(pcs) + tail);
      forall i | 1 <= i < |pcs|
        ensures d[i] == Shl3(pcs[i])
      {
        assert d[i] == DecodeVaddrs(rest)[i - 1];
        assert pcs[1..][i - 1] == pcs[i];
      }
    }
  }

  /** A written program counter at the front decodes to its byte address,
      followed by whatever the rest decodes to. */
  lemma DecodeFirstWord(pc: u64, rest: seq<byte>)
    ensures DecodeVaddrs(LeBytes(pc, 8) + rest) == [Shl3(pc)] + DecodeVaddrs(rest)
  {
    var bytes := LeBytes(pc, 8) + rest;
    assert bytes[0..8] == LeBytes(pc, 8);
    assert bytes[8..] == rest;
    var w := ReadU64(bytes, 0).value;
    Pow256Is2To64();
    LeOfLeBytes(pc, 8);
    LeOfLeBytes(w, 8);
  }
}

=== FILE: util.dfy ===
/** `util`: listing the files of a directory by extension, and making a path
    relative to the current directory for display. */
module Util {
  import opened Wrappers
  import opened Seqs
  import opened Paths
  import opened Io

  /** A `read_dir` entry: its path (`dir.join(file_name)`) and whether
      `Path::is_file` holds for it. */
  datatype DirEntry = DirEntry(path: Path, isFile: bool)

  /** The outcome of `read_dir`: the directory may fail to open, and each
      entry may fail to be read. */
  type Listing = Result<seq<Result<DirEntry, Error>>, Error>

  predicate HasExtension(e: DirEntry, ext: string)
  {
    e.isFile && Extension(e.path) == Some(ext)
  }

  /** The test of `files_with_extension`, as a filter. */
  function HasExt(ext: string): DirEntry -> bool
  {
    e => HasExtension(e, ext)
  }

  predicate AllRead(entries: seq<Result<DirEntry, Error>>)
  {
    forall i :: 0 <= i < |entries| ==> entries[i].Ok?
  }

  function Values(entries: seq<Result<DirEntry, Error>>): (r: seq<DirEntry>)
    requires AllRead(entries)
    ensures |r| == |entries|
    ensures forall i :: 0 <= i < |r| ==> r[i] == entries[i].value
  {
    seq(|entries|, i requires 0 <= i < |entries| => entries[i].value)
  }

  function PathsOf(es: seq<DirEntry>): (r: seq<Path>)
    ensures |r| == |es|
    ensures forall i :: 0 <= i < |es| ==> r[i] == es[i].path
  {
    seq(|es|, i requires 0 <= i < |es| => es[i].path)
  }

  lemma ValuesCons(entries: seq<Result<DirEntry, Error>>)
    requires |entries| > 0 && AllRead(entries)
    ensures Values(entries) == [entries[0].value] + Values(entries[1..])
  {
  }

  lemma CollectStep(entries: seq<Result<DirEntry, Error>>, ext: string, rest: seq<Path>)
    requires |entries| > 0 && AllRead(entries)
    requires rest == PathsOf(Filter(Values(entries[1..]), HasExt(ext)))
    ensures PathsOf(Filter(Values(entries), HasExt(ext))) ==
            (if HasExtension(entries[0].value, ext) then [entries[0].value.path] + rest else rest)
  {
    ValuesCons(entries);
    var es := Values(entries);
    assert es[1..] == Values(entries[1..]);
  }

  /** The loop of `files_with_extension` over the entries: the first entry
      that cannot be read aborts it. */
  function Collect(entries: seq<Result<DirEntry, Error>>, ext: string): (r: Result<seq<Path>, Error>)
    ensures r.Ok? <==> AllRead(entries)
    ensures r.Ok? ==> r.value == PathsOf(Filter(Values(entries), HasExt(ext)))
  {
    if |entries| == 0 then Ok([])
    else
      match entries[0]
      case Err(e) =>
        Err(e)
      case Ok(entry) =>
        var rest := Collect(entries[1..], ext);
        assert AllRead(entries) <==> AllRead(entries[1..]);
        if rest.Err? then
          rest
        else
          CollectStep(entries, ext, rest.value);
          if HasExtension(entry, ext) then Ok([entry.path] + rest.value) else rest
  }

  /** `files_with_extension(dir, ext)`, given what `read_dir(dir)` yields. */
  function FilesWithExtension(listing: Listing, ext: string): (r: Result<seq<Path>, Error>)
    ensures r.Ok? <==> listing.Ok? && AllRead(listing.value)
    ensures listing.Err? ==> r == Err(listing.error)
  {
    var entries :- listing;
    Collect(entries, ext)
  }

  lemma {:induction false} FilteredPathsSubsequence(es: seq<DirEntry>, ext: string)
    ensures IsSubsequence(PathsOf(Filter(es, HasExt(ext))), PathsOf(es))
  {
    if |es| > 0 {
      FilteredPathsSubsequence(es[1..], ext);
      var rest := PathsOf(Filter(es[1..], HasExt(ext)));
      assert PathsOf(es) == [es[0].path] + PathsOf(es[1..]);
      if HasExtension(es[0], ext) {
        assert PathsOf(Filter(es, HasExt(ext))) == [es[0].path] + rest;
      } else {
        SubsequenceCons(rest, PathsOf(es[1..]), es[0].path);
      }
    }
  }

  /** `files_with_extension` returns exactly the regular files with extension
      `ext`, in listing order: every listed path it returns belongs to such an
      entry, no such entry is dropped, and the result is a subsequence of the
      listed paths. */
  lemma {:induction false} FilesWithExtensionSpec(listing: Listing, ext: string)
    requires FilesWithExtension(listing, ext).Ok?
    ensures var r := FilesWithExtension(listing, ext).value;
      var es := Values(listing.value);
      && (forall p :: p in r ==> exists e :: e in es && HasExtension(e, ext) && e.path == p)
      && (forall e :: e in es && HasExtension(e, ext) ==> e.path in r)
      && IsSubsequence(r, PathsOf(es))
  {
    var es := Values(listing.value);
    var kept := Filter(es, HasExt(ext));
    var r := FilesWithExtension(listing, ext).value;
    assert r == PathsOf(kept);
    forall p | p in r
      ensures exists e :: e in es && HasExtension(e, ext) && e.path == p
    {
      var i :| 0 <= i < |r| && r[i] == p;
      assert kept[i] in es && HasExtension(kept[i], ext);
    }
    forall e | e in es && HasExtension(e, ext)
      ensures e.path in r
    {
      var i :| 0 <= i < |es| && es[i] == e;
      var j :| 0 <= j < |kept| && kept[j] == e;
      assert r[j] == e.path;
    }
    FilteredPathsSubsequence(es, ext);
  }

  /** `Path::strip_current_dir`: `p` relative to the current directory when
      that directory is a component-wise prefix of `p`, else `p` itself,
      including when the current directory cannot be determined. */
  function StripCurrentDir(p: Path, currentDir: Result<Path, Error>): (r: Path)
    ensures currentDir.Ok? && |currentDir.value| <= |p| && p[..|currentDir.value|] == currentDir.value
      ==> currentDir.value + r == p
    ensures !(currentDir.Ok? && |currentDir.value| <= |p| && p[..|currentDir.value|] == currentDir.value)
      ==> r == p
  {
    match currentDir
    case Err(_) => p
    case Ok(dir) => StripPrefix(p, dir).UnwrapOr(p)
  }
}

=== FILE: vaddr.dfy ===
/** `Vaddr`: a 64-bit virtual address whose `Debug` output is unpadded hex. */
module Addresses {
  import opened Wrappers
  import opened Words
  import opened Hex

  /** `struct Vaddr(u64)`; `From<u64>` is the constructor. */
  datatype Vaddr = Vaddr(addr: u64)

  /** `Vaddr::default()`. */
  const DEFAULT_VADDR: Vaddr := Vaddr(0)

  /** `format!("{:?}", vaddr)`, i.e. `0x{:x}`. */
  function Debug(v: Vaddr): (s: string)
    ensures |s| >= 3 && s[..2] == "0x"
    ensures s[2] == '0' <==> v.addr == 0
    ensures v.addr == 0 ==> s == "0x0"
    ensures forall k :: 2 <= k < |s| ==> s[k] in LOWER_HEX_DIGITS
  {
    ToHexNoLeadingZero(v.addr);
    ToHexDigits(v.addr);
    "0x" + ToHex(v.addr)
  }

  /** Parsing the printed digits in base 16 gives back the address. */
  lemma DebugRoundTrip(v: Vaddr)
    ensures ParseU64Radix16(Debug(v)[2..]) == Some(v.addr)
  {
    assert Debug(v)[2..] == ToHex(v.addr);
    ParseToHex(v.addr);
  }
}

=== FILE: var_guard.dfy ===
/** `VarGuard`: sets or clears an environment variable and restores its
    previous state when dropped. The process environment is a map from
    variable names to values, threaded through explicitly. */
module VarGuard {
  import opened Wrappers

  type Env = map<string, string>

  /** The guard remembers the key and the value it had before `set`. */
  datatype Guard = Guard(key: string, saved: Option<string>)

  /** `var_os(key)`. */
  function Lookup(env: Env, key: string): Option<string>
  {
    if key in env then Some(env[key]) else None
  }

  /** `set_var(key, v)` for `Some(v)`, `remove_var(key)` for `None`. */
  function Assign(env: Env, key: string, val: Option<string>): Env
  {
    match val
    case Some(v) => env[key := v]
    case None => env - {key}
  }

  /** `VarGuard::set(key, val)`: the new environment and the guard. */
  function Set(env: Env, key: string, val: Option<string>): (r: (Env, Guard))
    ensures Lookup(r.0, key) == val
    ensures forall k :: k != key ==> Lookup(r.0, k) == Lookup(env, k)
    ensures r.1.key == key && r.1.saved == Lookup(env, key)
  {
    (Assign(env, key, val), Guard(key, Lookup(env, key)))
  }

  /** `Drop for VarGuard`: puts back the saved value, or removes the key if
      it had none. */
  function Drop(env: Env, g: Guard): (r: Env)
    ensures Lookup(r, g.key) == g.saved
    ensures forall k :: k != g.key ==> Lookup(r, k) == Lookup(env, k)
  {
    Assign(env, g.key, g.saved)
  }

  /** Two environments that agree on every lookup are equal. */
  lemma {:induction false} EnvExtensionality(a: Env, b: Env)
    requires forall k :: Lookup(a, k) == Lookup(b, k)
    ensures a == b
  {
    forall k | k in a
      ensures k in b && a[k] == b[k]
    {
      assert Lookup(a, k) == Lookup(b, k);
    }
    forall k | k in b
      ensures k in a
    {
      assert Lookup(a, k) == Lookup(b, k);
    }
  }

  /** `set` followed by dropping the guard leaves the environment as it was. */
  lemma SetThenDropIsIdentity(env: Env, key: string, val: Option<string>)
    ensures Drop(Set(env, key, val).0, Set(env, key, val).1) == env
  {
    var (mid, g) := Set(env, key, val);
    EnvExtensionality(Drop(mid, g), env);
  }
}

=== FILE: words.dfy ===
/** Fixed-width integers and little-endian byte order, as used by the trace,
    instruction and compiled-binary files (`byteorder::LittleEndian`). */
module Words {
  import opened Wrappers

  const U64_LIMIT: nat := 0x1_0000_0000_0000_0000
  type byte = x: nat | x < 256
  type u64 = x: nat | x < U64_LIMIT

  function Pow256(n: nat): (p: nat)
    ensures p > 0
  {
    if n == 0 then 1 else 256 * Pow256(n - 1)
  }

  lemma Pow256Is2To64()
    ensures Pow256(8) == U64_LIMIT
  {
    assert Pow256(4) == 0x1_0000_0000;
  }

  /** The value whose little-endian encoding is `bs` (first byte least significant). */
  function Le(bs: seq<byte>): nat
  {
    if |bs| == 0 then 0 else bs[0] + 256 * Le(bs[1..])
  }

  /** The value whose big-endian encoding is `bs` (last byte least significant). */
  function Be(bs: seq<byte>): nat
  {
    if |bs| == 0 then 0 else Be(bs[..|bs| - 1]) * 256 + bs[|bs| - 1]
  }

  /** The `n` low bytes of `v`, least significant first. */
  function LeBytes(v: nat, n: nat): (bs: seq<byte>)
    ensures |bs| == n
  {
    if n == 0 then [] else [v % 256] + LeBytes(v / 256, n - 1)
  }

  function Reverse<T>(s: seq<T>): (r: seq<T>)
    ensures |r| == |s|
    ensures forall i :: 0 <= i < |s| ==> r[i] == s[|s| - 1 - i]
  {
    if |s| == 0 then [] else Reverse(s[1..]) + [s[0]]
  }

  lemma {:induction false} LeBound(bs: seq<byte>)
    ensures Le(bs) < Pow256(|bs|)
  {
    if |bs| > 0 {
      LeBound(bs[1..]);
    }
  }

  /** Encoding then decoding gives back every value that fits in `n` bytes. */
  lemma {:induction false} LeOfLeBytes(v: nat, n: nat)
    requires v < Pow256(n)
    ensures Le(LeBytes(v, n)) == v
  {
    if n > 0 {
      LeOfLeBytes(v / 256, n - 1);
    }
  }

  /** Decoding then encoding gives back the bytes. */
  lemma {:induction false} LeBytesOfLe(bs: seq<byte>)
    ensures LeBytes(Le(bs), |bs|) == bs
  {
    if |bs| > 0 {
      LeBytesOfLe(bs[1..]);
      assert (bs[0] + 256 * Le(bs[1..])) / 256 == Le(bs[1..]);
    }
  }

  /** Reading the reversed bytes big-endian is reading them little-endian. */
  lemma {:induction false} BeOfReverse(bs: seq<byte>)
    ensures Be(Reverse(bs)) == Le(bs)
  {
    if |bs| > 0 {
      var r := Reverse(bs);
      assert r[..|r| - 1] == Reverse(bs[1..]);
      BeOfReverse(bs[1..]);
    }
  }

  /** Encoding a big-endian value little-endian reverses its bytes. */
  lemma {:induction false} LeBytesOfBe(bs: seq<byte>)
    ensures LeBytes(Be(bs), |bs|) == Reverse(bs)
  {
    if |bs| > 0 {
      var init := bs[..|bs| - 1];
      LeBytesOfBe(init);
      var v := Be(bs);
      assert v % 256 == bs[|bs| - 1];
      assert v / 256 == Be(init);
      assert Reverse(bs) == [bs[|bs| - 1]] + Reverse(init);
    }
  }

  /** Rust's `u64::swap_bytes`: the value whose big-endian bytes are `v`'s
      little-endian bytes. */
  function SwapBytes(v: u64): u64
  {
    LeBytesOfBeBound(LeBytes(v, 8));
    Be(LeBytes(v, 8))
  }

  lemma {:induction false} LeBytesOfBeBound(bs: seq<byte>)
    requires |bs| == 8
    ensures Be(bs) < U64_LIMIT
  {
    LeBytesOfBe(bs);
    BeOfReverse(Reverse(bs));
    assert Reverse(Reverse(bs)) == bs;
    LeBound(Reverse(bs));
  }

  /** Swapping the bytes twice gives back the value. */
  lemma SwapBytesInvolution(v: u64)
    ensures SwapBytes(SwapBytes(v)) == v
  {
    var bs := LeBytes(v, 8);
    LeBytesOfBe(bs);
    BeOfReverse(bs);
    assert Reverse(Reverse(bs)) == bs;
    LeOfLeBytes(v, 8);
  }

  /** Rust's `pc << 3` on a `u64`: the three top bits are shifted out. */
  function Shl3(pc: u64): (r: u64)
    ensures r % 8 == 0
    ensures r == (pc % 0x2000_0000_0000_0000) * 8
  {
    (pc * 8) % U64_LIMIT
  }

  /** Rust's `read_u64::<LittleEndian>` at byte offset `offset`: the word whose
      little-endian bytes are the eight bytes there, or `None` when fewer than
      eight bytes remain (an `UnexpectedEof` in the source). */
  function ReadU64(bytes: seq<byte>, offset: nat): (r: Option<u64>)
    ensures r.Some? <==> offset + 8 <= |bytes|
    ensures r.Some? ==> LeBytes(r.value, 8) == bytes[offset..offset + 8]
  {
    if offset + 8 <= |bytes| then
      var word := bytes[offset..offset + 8];
      LeBound(word);
      LeBytesOfLe(word);
      Some(Le(word))
    else None
  }
}

=== FILE: wrappers.dfy ===
/** Failure-compatible wrappers standing in for Rust's `Option` and `Result`.
    Both support Dafny's `:-` operator, which plays the role of Rust's `?`. */
module Wrappers {

  /** Rust's `Option<T>`. */
  datatype Option<+T> = None | Some(value: T) {

    predicate IsFailure() {
      None?
    }

    function PropagateFailure<U>(): Option<U>
      requires None?
    {
      None
    }

    function Extract(): T
      requires Some?
    {
      value
    }

    /** `unwrap_or`: the carried value, or `default` when there is none. */
    function UnwrapOr(default: T): T {
      match this
      case Some(v) => v
      case None => default
    }
  }

  /** Rust's `Result<T, E>`. */
  datatype Result<+T, +E> = Ok(value: T) | Err(error: E) {

    predicate IsFailure() {
      Err?
    }

    function PropagateFailure<U>(): Result<U, E>
      requires Err?
    {
      Err(error)
    }

    function Extract(): T
      requires Ok?
    {
      value
    }
  }

  /** `xs.iter().map(f).collect::<Result<Vec<_>, _>>()`: every value when
      every call succeeds, otherwise the error of the first call that fails. */
  function CollectResults<A, B, E>(xs: seq<A>, f: A -> Result<B, E>): (r: Result<seq<B>, E>)
    ensures r.Ok? <==> forall i :: 0 <= i < |xs| ==> f(xs[i]).Ok?
    ensures r.Ok? ==> |r.value| == |xs| && forall i :: 0 <= i < |xs| ==> f(xs[i]) == Ok(r.value[i])
    ensures r.Err? ==> exists i :: 0 <= i < |xs| && f(xs[i]) == Err(r.error)
                                   && forall j :: 0 <= j < i ==> f(xs[j]).Ok?
  {
    if |xs| == 0 then Ok([])
    else
      match f(xs[0])
      case Err(e) => Err(e)
      case Ok(y) =>
        var rest := CollectResults(xs[1..], f);
        assert forall i :: 1 <= i < |xs| ==> xs[1..][i - 1] == xs[i];
        match rest
        case Err(e) => CollectTailError(xs, f, e); Err(e)
        case Ok(ys) => Ok([y] + ys)
  }

  lemma CollectTailError<A, B, E>(xs: seq<A>, f: A -> Result<B, E>, e: E)
    requires |xs| > 0 && f(xs[0]).Ok?
    requires exists i :: 0 <= i < |xs| - 1 && f(xs[1..][i]) == Err(e) && forall j :: 0 <= j < i ==> f(xs[1..][j]).Ok?
    ensures exists i :: 0 <= i < |xs| && f(xs[i]) == Err(e) && forall j :: 0 <= j < i ==> f(xs[j]).Ok?
  {
    var i :| 0 <= i < |xs| - 1 && f(xs[1..][i]) == Err(e) && forall j :: 0 <= j < i ==> f(xs[1..][j]).Ok?;
    assert f(xs[i + 1]) == Err(e);
    assert forall j :: 1 <= j < i + 1 ==> xs[j] == xs[1..][j - 1];
  }
}
